=== FILE: README.md ===
# Trading floor core, modelled in Dafny

This project models the bookkeeping core of a multi-agent trading floor. Each
trader is an LLM agent that runs periodically and alternates between trading
and rebalancing. Each run is traced. A tracing processor decodes the owning
trader from the trace id and writes one log line per lifecycle event into a
SQLite store. The dashboard reads those lines back. A currency service serves
exchange rates, from a live API or from a built-in fallback table.

The model is made of pure functions over immutable values:

- `wrappers.dfy` (`Wrappers`): `Option` and `Result`. A `Failure` stands for a
  Python exception, and its payload is the exception message.
- `text.dfy` (`Text`): the Python string operations the core relies on. These
  are `lower`/`upper` (ASCII letters), `in`, `find`, `split` on one
  character, `join`, `strip`, and decimal rendering.
- `tracers.dfy` (`Tracers`): `make_trace_id`, `LogTracer.get_name` and the
  four `LogTracer` handlers. Each handler takes the map of open-span start
  times and returns the new map plus the `write_log` calls it makes.
- `log_store.dfy` (`LogStore`): the `logs` table as an append-only sequence,
  with `write_log`, `read_log`, `read_log_prioritized` and
  `read_mcp_tool_logs`. It also has the `accounts` and `market` tables as maps
  with upsert semantics.
- `traders.dfy` (`Traders`): `get_model`, the `Trader` record, the trace name
  and trace id of a run, the opening message, the account report, and the
  mode toggle of `run`.
- `currency_rates.dfy` (`CurrencyRates`): `CurrencyExchangeService` and the
  four module-level tool functions.
- `pipeline.dfy` (`Pipeline`): the tracer wired to the store, so whole event
  sequences can be followed into the `logs` table.

Some inputs of the original come from the outside world. Here they are
parameters:

- the random padding of a trace id: a string drawn from the alphabet;
- `time.time()`: an integer count of tenths of a second;
- the store's `datetime('now')`: an integer timestamp;
- the HTTP response of the rate API: `Option<ApiResponse>`, `None` when the
  request raised;
- how a trader's run ended: completed, raised an `Exception`, or raised a
  `BaseException` outside `Exception`.

## Model

| member | source | states |
|---|---|---|
| Tracers.MakeTraceId | tracers.py:10-18 | The id is `trace_`, then the tag, then `0`, then the padding. The padding holds only lower-case letters and digits. The part after `trace_` is exactly 32 characters when the tag is shorter than 32, and the tag plus one otherwise. |
| Tracers.GetName | tracers.py:24-30 | Decoding fails (the `IndexError`) exactly when the id has no `_`. It gives no name exactly when the text between the first and second `_` has no `0`. A decoded name never contains `0` or `_`. |
| Tracers.NameEndsAtMarker | tracers.py:26-28 | A decoded name, followed by `0`, is a prefix of the segment `get_name` inspects. |
| Tracers.DecodeEncode | tracers.py:10-30 | Decoding `make_trace_id(tag)` for a tag without `_` gives the tag up to its first `0`, whatever the padding. |
| Tracers.TraceIdRoundTrip | tracers.py:10-30 | A tag with neither `0` nor `_` is recovered exactly from its trace id. |
| Tracers.SpanKeyInjective | tracers.py:47 | When the trace ids have equal length, two `trace_id_span_id` keys are equal exactly when the pairs are equal. |
| Tracers.Category | tracers.py:44-57 | A span is logged under `mcp_tool` exactly when it is a function span or its own type is `mcp_tool`. Otherwise it is logged under its type, or `span` when it has no data. |
| Tracers.ToolStartMessage | tracers.py:52-57 | The message is the wrench and the tool name, then ` [server]` when the server is truthy (exactly those characters), then ` - Starting...`. |
| Tracers.ResultSummary | tracers.py:90-97 | The summary is empty exactly when the result is absent or empty. A result of at most 100 characters follows the arrow whole. A longer one is cut to its first 97 characters plus `...`. |
| Tracers.DurationTextDenotes | tracers.py:101 | The rendered duration is the integer part, a dot and one digit, and these give back the measured tenths. |
| Text.NatToStringRoundTrip | tracers.py:101 | Decimal rendering of a natural number reads back as the same number. |
| Tracers.ToolEndMessage | tracers.py:86-103 | The message starts with the wrench, the tool name and the result summary. Next comes ` [<duration>s]`, with the duration rendered to one decimal. It ends in `✅` when there is no error, and in `❌ Error: <error>` when there is one. |
| Tracers.ToolEndTail | tracers.py:101-103 | After the summary: ` [<duration>s]`, a space, then the status mark, then ` Error: <error>` exactly when there is an error, and nothing else. The length is fixed: the duration plus 6, plus the error and its 8 characters of lead-in when there is an error. |
| Tracers.DescribeIsUnwords | tracers.py:60-70 | A regular span message is the verb and the present fields (type, name, server, error) joined by single spaces. An absent or empty field leaves no stray space. |
| Tracers.OnTrace | tracers.py:32-40 | An id without `_` raises. An owned trace writes exactly `(owner, "trace", "Started: <name>")` at its start and `(owner, "trace", "Ended: <name>")` at its end. An unowned one writes nothing. The start-time map is unchanged. |
| Tracers.OnSpanStart | tracers.py:42-71 | An owned span records its start time under its key and writes one entry with its category and start message. An unowned span changes nothing. An id without `_` raises. |
| Tracers.OnSpanEnd | tracers.py:73-119 | An owned span's key is absent afterwards. One entry is written, with the elapsed time since the recorded start (zero if none). An unowned span changes nothing. An id without `_` raises. |
| Tracers.StartThenEnd | tracers.py:47-82 | A span started at `t0` and ended at `t1` is logged with duration `t1 - t0`, and the start-time map returns to what it was. |
| Tracers.EndWithoutStart | tracers.py:78-82 | An end without a recorded start is logged with duration zero and leaves the map as it was. |
| Tracers.OtherSpansUntouched | tracers.py:47-82 | Handling one span leaves every other key's start record as it was. |
| LogStore.WriteLog | database.py:44-61 | One entry is appended under the lower-cased name, with the store's timestamp. Everything stored before is unchanged. |
| LogStore.WriteKeepsChronological | database.py:57-60 | If the clock does not run backwards, the table stays in timestamp order. |
| LogStore.SelectCount | database.py:76-81 | The rows selected for a name and type condition are exactly the matching rows, each as often as it is stored. |
| LogStore.SortByTime | database.py:124-126 | The sort is a permutation of its input and is in timestamp order. |
| LogStore.SortChronologicalIsIdentity | database.py:124-126 | Sorting rows already in timestamp order changes nothing. |
| LogStore.Recent | database.py:76-83 | `ORDER BY datetime DESC LIMIT n`, read back reversed: `min(n, available)` rows, oldest first. No row left out is later than a row taken. |
| LogStore.ReadLog | database.py:63-83 | The result has `min(n, k)` rows, where `k` is the number of rows for the name, case ignored. All are that name's rows, oldest first, and they are the most recent ones. |
| LogStore.ReadMcpToolLogs | database.py:128-148 | The same as `read_log`, restricted to `mcp_tool` rows. |
| LogStore.AccountWindow | database.py:100-107 | The account rows taken number `min(n, accounts)` and are the most recent account rows. |
| LogStore.OtherWindow | database.py:108-122 | Other rows are taken only when slots remain, and then `min(slots, others)` of the most recent ones. |
| LogStore.ReadLogPrioritized | database.py:85-126 | The length follows the two-query formula and is at most `n`. The rows are exactly the two windows, oldest first, all from the store and under the name. With at least `n` account rows only account rows come back. With fewer, every account row comes back. |
| LogStore.ReadIgnoresCase | database.py:81 | The three readers give the same result for any two names with the same lower-case form. |
| LogStore.ReadChronologicalIsSuffix | database.py:63-83 | On a store in timestamp order, a read is the tail of the name's rows in insertion order. |
| LogStore.WriteThenReadLatest | database.py:44-83 | After a write, with a clock that does not run backwards, reading one row under any case variant of the name gives the row just written. |
| LogStore.WriteAccount | database.py:26-35 | The upsert stores under the lower-cased name. Afterwards the name reads back as the new account, other names read as before, and the key set grows by that one key. |
| LogStore.ReadAccount | database.py:37-42 | `None` exactly when no row exists for the lower-cased name, else that row. |
| LogStore.AccountRoundTrip | database.py:26-42 | A write under one spelling is read back under another. A second write replaces the first. |
| LogStore.WriteMarket | database.py:150-159 | The upsert is keyed by the exact date. The date reads back as the new data, and other dates read as before. |
| LogStore.ReadMarket | database.py:161-166 | `None` exactly when no row exists for the date, else that row. |
| Traders.GetModel | traders.py:65-80 | The first matching rule wins: `/` gives OpenRouter, then `deepseek`, `grok` and `gemini` give their clients, and anything else gives the bare name. Each client is chosen exactly when its rule is the first to match. |
| Traders.SlashTakesPrecedence | traders.py:67-71 | `deepseek/deepseek-chat` goes to OpenRouter, not DeepSeek. |
| Traders.NewTrader | traders.py:107-117 | A new trader starts in trade mode with the given names and model. |
| Traders.TraceName | traders.py:188 | The trace name is `<name>-trading` in trade mode and `<name>-rebalancing` otherwise. |
| Traders.TraceIdOwner | traders.py:188-192 | The tracer attributes a trader's trace to the trader's lower-cased name when the name has neither `0` nor `_`. |
| Traders.AgentMessage | traders.py:154-158 | The trade message is chosen exactly in trade mode. It carries the trader's name, strategy and account. |
| Traders.GetAccountReport | traders.py:135-143 | The report is the account without `portfolio_value_time_series`. Every other key keeps its value. |
| Traders.Run | traders.py:197-205 | A run that completes or raises an `Exception` flips the mode and changes nothing else in the modelled record (name, last name, model name). A diagnostic `Error running trader <name>: <e>` appears exactly when an `Exception` was caught. A `BaseException` outside `Exception` propagates out of `run`, and the mode does not flip. |
| Traders.RunAllAlternates | traders.py:197-205 | A series of runs stops at the first escaping exception. After the `k` runs that returned, whatever they caught, the mode equals the initial one exactly when `k` is even. Nothing else in the modelled record changes. |
| Traders.TraceNamesAlternate | traders.py:186-205 | A run that returns is followed by a run whose trace is of the other kind. |
| CurrencyRates.TablePositive | currency_rates.py:11-20 | Every fallback table entry is positive. |
| CurrencyRates.FallbackRate | currency_rates.py:23-32 | Equal codes give 1. A direct entry gives that entry. Otherwise a reverse entry gives a rate whose product with it is 1. It raises `Exchange rate not available for X to Y` exactly when neither direction is in the table. Every rate is positive. |
| CurrencyRates.DirectRatesNotReciprocal | currency_rates.py:13-18 | The two direct USD/EUR entries multiply to 1.003, not 1. |
| CurrencyRates.NoCrossRate | currency_rates.py:27-32 | GBP to JPY raises, because neither code has a row in the table. |
| CurrencyRates.GetExchangeRate | currency_rates.py:34-74 | Codes are upper-cased, and an unsupported source is reported before an unsupported target. The live rate is used exactly when the status is 200 and the target is in `rates`. Otherwise the fallback rule decides, and its error is the error. The converted amount is amount times rate. |
| CurrencyRates.ConvertCurrency | currency_rates.py:76-77 | `convert_currency` is `get_exchange_rate` with its arguments reordered. |
| CurrencyRates.SameCurrencyIsIdentity | currency_rates.py:34-74 | Without a usable live rate, a supported code converts to itself at rate 1, in any letter case. |
| CurrencyRates.ListSupportedCurrencies | currency_rates.py:79-80 | The list has the nine supported codes, each once. |
| CurrencyRates.RateFor | currency_rates.py:87-91 | A target's entry is its rate when the lookup succeeds, and `Error: ` plus the exception message when it raises. |
| CurrencyRates.GetMultipleRates | currency_rates.py:82-97 | The base is upper-cased. There is exactly one entry per requested target, keyed as given. A target requested twice keeps the result of its last request. |
| CurrencyRates.ToReply | currency_rates.py:101-106 | A tool function never raises. It replies with the result, or with `{'error': message}` exactly when the service raised. |
| CurrencyRates.GetExchangeRateTool | currency_rates.py:101-106 | The reply is the service's quote when the service returns. It is `{'error': str(e)}` with the service's message exactly when the service raises. |
| CurrencyRates.ConvertCurrencyTool | currency_rates.py:108-113 | The reply is the quote of `get_exchange_rate(from, to, amount)` when it returns, with converted amount equal to amount times rate. It is `{'error': str(e)}` with the service's message exactly when it raises. |
| CurrencyRates.ListSupportedCurrenciesTool | currency_rates.py:115-124 | The reply holds the supported codes in their declared order, and a count equal to its length, 9. |
| CurrencyRates.ParseTargets | currency_rates.py:128 | Target `i` is `strip().upper()` of the `i`-th part of `split(',')`, so there are one more targets than commas. Each target is upper-case, comma-free and stripped. |
| CurrencyRates.Normalize | currency_rates.py:128 | `strip().upper()` of one part: the upper-cased slice of the part left after removing surrounding whitespace. It has no comma, no lower-case letter and no surrounding whitespace. |
| CurrencyRates.GetMultipleRatesTool | currency_rates.py:126-132 | The reply is never an error. The base is upper-cased, and its keys are exactly the parsed targets. Each target holds the rate or `Error: <message>` of its last occurrence. |
| Text.SplitJoin | currency_rates.py:128 | Joining the parts of `split(c)` with `c` gives back the input. |
| Text.SplitCount | currency_rates.py:128 | `split(c)` yields one more part than there are `c`. |
| Text.Strip | currency_rates.py:128 | `strip()` returns a slice with only whitespace outside it, and it neither starts nor ends with whitespace. |
| Pipeline.Deliver | database.py:44-61 | Performing a handler's writes appends one lower-cased, timestamped row per write, in order, and keeps every earlier row. |
| Pipeline.Handle | tracers.py:32-119 | One event adds at most one row and keeps every earlier row. An event of an unowned trace changes nothing. An owned one adds exactly one row, under its lower-cased owner and stamped with the store's clock, with the kind and message of its handler's write. The open-span map becomes the one the handler leaves. |
| Pipeline.Dispatch | tracers.py:32-119 | Trace events leave the open-span map alone and write `Started: <name>` or `Ended: <name>` under `trace`. A span start records the clock under the span's key and writes its category and start message. A span end removes the key and writes the end message with the time since the recorded start (zero if none). An owned event writes exactly once, under its owner. An unowned one writes nothing. An id without `_` raises. |
| Pipeline.SpanTimedThroughStore | tracers.py:42-119 | Starting and then ending an owned span that was not open adds two rows to the store. The first carries the start message. The second carries the end message with the time between the two clock readings. The open-span map returns to what it was. |
| Pipeline.UnownedEventsLeaveNoTrace | tracers.py:32-76 | Any number of events from unowned traces, each at its own clock readings, leave the store and the open-span map as they were. |
| Pipeline.HandleAllAppendOnly | database.py:57-60 | A series of events, each at its own clock readings, only appends to the store, at most one row per event. |
| Pipeline.StartedIsWritten | tracers.py:32-35 | Starting an owned trace appends exactly one row: the owner's `Started: <name>` entry under `trace`, as `write_log` stores it. |
| Pipeline.TraderRunIsLogged | traders.py:188-192 | Once a trader's run opens its trace, the trader's latest row, read under any name with the same lower-case form as the trader's, is `Started: <trace name>` under `trace`. |

## Left out

- SQLite, JSON encoding and the file system. Tables are values, and account and market payloads are of a type parameter. `json.dumps`/`json.loads` are treated as inverse.
- The store's ties between equal timestamps. `datetime('now')` has one-second resolution, and SQLite returns equal keys in an unspecified order. The model breaks ties by insertion order.
- LogStore.ReadLogPrioritized: the model sorts the two windows in ascending order, with other rows before account rows. The source sorts them in descending order and then reverses. The two agree on rows with distinct timestamps, and on how many rows of each kind come back. Whether they also agree on tie order is argued, not proved.
- `time.time()` is a float. The model counts time in tenths of a second, so the `.1f` rounding of a duration is not modelled.
- Python's `lower()`/`upper()` are Unicode-aware. The model changes ASCII letters only. `strip()` is modelled with the full `str.isspace` set.
- Tracers.ResultSummary: the `except` branch that renders ` → [result]` is not modelled. Results are strings, and slicing a string cannot raise. Non-string results are not modelled.
- Span data whose `name` or `server` attribute exists but holds `None` is folded into "absent". An absent `name` renders as `unknown_tool` in tool messages.
- `make_trace_id` neither lower-cases nor validates its tag. A tag of 31 characters gets no padding and exactly fills the 32 characters after `trace_`. A tag of 32 or more also gets none, and the part after `trace_` is then the tag plus one, past 32. The model follows the code.
- Traders.Run: `self.agent` is reassigned on every run that reaches `run_agent` (and in `create_agent`). The agent object is not part of the modelled `Trader` record, so "nothing else changes" speaks of the record only.
- The agent runtime (`Agent`, `Runner.run`, MCP servers, model clients), the prompt templates and the HTTP client are not part of this model. A run's outcome, the messages' templates and the API response are parameters.
- The `print` calls (the fallback notice in `get_exchange_rate` and the diagnostic of `run`). The diagnostic is returned as a value instead.
- `timestamp` fields of the currency replies, and the JSON text of the tool replies. Replies are values.
- API rates that are not numbers, which would make `amount * rate` raise inside the `try` and fall back, are not modelled.
- CurrencyRates.FallbackRate: rates are exact `real` numbers, so floating-point rounding is not modelled. A reverse rate times its table entry is exactly 1 here. In IEEE doubles it can be off by one unit in the last place (`1.0 / 0.73 * 0.73` is `0.9999999999999999`). The same holds for `amount * rate`.
- LogStore.ReadLog: the row count is a `nat`. SQLite reads a negative `LIMIT` as no limit, and that case is not modelled. The same holds for LogStore.ReadMcpToolLogs and LogStore.ReadLogPrioritized.
- `force_flush`, `shutdown` and `__init__` of the tracer. They do nothing beyond creating the empty start-time map.
- Concurrency between traders sharing the store and the tracer.

=== FILE: currency_rates.dfy ===
/** The currency service (`currency_rates.py`): code validation, the
    fallback rate table and its lookup rule, the choice between the live rate
    and the fallback, the per-target collection of `get_multiple_rates`, and
    the module-level tool functions that turn exceptions into error replies.
    The HTTP response is an input (`None` when the request failed), rates are
    `real`, and timestamps and JSON text are outside the model. */
module CurrencyRates {
  import opened Wrappers
  import opened Text

  const Supported: seq<string> := ["USD", "EUR", "GBP", "JPY", "CAD", "AUD", "CHF", "CNY", "INR"]

  /** The built-in table: rates from USD and from EUR only. */
  const FallbackRates: map<string, map<string, real>> := map[
    "USD" := map["EUR" := 0.85, "GBP" := 0.73, "JPY" := 110.0, "CAD" := 1.25,
                 "AUD" := 1.35, "CHF" := 0.92, "CNY" := 6.45, "INR" := 75.0],
    "EUR" := map["USD" := 1.18, "GBP" := 0.86, "JPY" := 129.5, "CAD" := 1.47,
                 "AUD" := 1.59, "CHF" := 1.08, "CNY" := 7.59, "INR" := 88.2]
  ]

  predicate HasEntry(from: string, to: string) {
    from in FallbackRates && to in FallbackRates[from]
  }

  lemma TablePositive(from: string, to: string)
    requires HasEntry(from, to)
    ensures FallbackRates[from][to] > 0.0
  {
  }

  /** `_get_fallback_rate`: identity, then the direct entry, then the
      reciprocal of the reverse entry, else `ValueError`. */
  function FallbackRate(from: string, to: string): (r: Result<real, string>)
    ensures from == to ==> r == Success(1.0)
    ensures from != to && HasEntry(from, to) ==> r == Success(FallbackRates[from][to])
    ensures from != to && !HasEntry(from, to) && HasEntry(to, from) ==>
              r.Success? && FallbackRates[to][from] * r.value == 1.0
    ensures r.Failure? <==> from != to && !HasEntry(from, to) && !HasEntry(to, from)
    ensures r.Failure? ==> r.error == "Exchange rate not available for " + from + " to " + to
    ensures r.Success? ==> r.value > 0.0
  {
    if from == to then Success(1.0)
    else if HasEntry(from, to) then
      TablePositive(from, to);
      Success(FallbackRates[from][to])
    else if HasEntry(to, from) then
      TablePositive(to, from);
      Success(1.0 / FallbackRates[to][from])
    else Failure("Exchange rate not available for " + from + " to " + to)
  }

  /** The table's two direct USD/EUR entries are not reciprocal:
      0.85 * 1.18 = 1.003. */
  lemma DirectRatesNotReciprocal()
    ensures FallbackRate("USD", "EUR").value * FallbackRate("EUR", "USD").value == 1.003
  {
  }

  /** Neither GBP nor JPY has a row in the table. */
  lemma NoCrossRate()
    ensures FallbackRate("GBP", "JPY") == Failure("Exchange rate not available for GBP to JPY")
  {
    assert "GBP"[0] != "USD"[0] && "GBP"[0] != "EUR"[0];
    assert "JPY"[0] != "USD"[0] && "JPY"[0] != "EUR"[0];
    assert !HasEntry("GBP", "JPY") && !HasEntry("JPY", "GBP");
    assert "Exchange rate not available for " + "GBP" + " to " + "JPY" == "Exchange rate not available for GBP to JPY";
  }

  datatype Source = Api | Fallback

  /** The dictionary `get_exchange_rate` returns, without its timestamp. */
  datatype Quote = Quote(fromCurrency: string, toCurrency: string, rate: real, amount: real,
                         convertedAmount: real, source: Source)

  /** The HTTP response for the base currency: its status and its `rates`
      object (`None` when the body has none or is not JSON). */
  datatype ApiResponse = ApiResponse(status: int, rates: Option<map<string, real>>)

  /** The live rate is used only for status 200 with the target in `rates`. */
  predicate ApiUsable(response: Option<ApiResponse>, to: string) {
    && response.Some?
    && response.value.status == 200
    && response.value.rates.Some?
    && to in response.value.rates.value
  }

  /** `amount * rate` */
  function Convert(amount: real, rate: real): real {
    amount * rate
  }

  /** `CurrencyExchangeService.get_exchange_rate`; `response` is what the
      request for the upper-cased base code returned, `None` if it raised. */
  function GetExchangeRate(from: string, to: string, amount: real, response: Option<ApiResponse>): (r: Result<Quote, string>)
    ensures Upper(from) !in Supported ==> r == Failure("Currency " + Upper(from) + " is not supported")
    ensures Upper(from) in Supported && Upper(to) !in Supported ==>
              r == Failure("Currency " + Upper(to) + " is not supported")
    ensures r.Success? ==>
              && r.value.fromCurrency == Upper(from) && r.value.toCurrency == Upper(to)
              && r.value.fromCurrency in Supported && r.value.toCurrency in Supported
              && r.value.amount == amount
              && r.value.convertedAmount == Convert(amount, r.value.rate)
              && (r.value.source == Api <==> ApiUsable(response, Upper(to)))
    ensures r.Success? && r.value.source == Api ==> r.value.rate == response.value.rates.value[Upper(to)]
    ensures r.Success? && r.value.source == Fallback ==> FallbackRate(Upper(from), Upper(to)) == Success(r.value.rate)
    ensures Upper(from) in Supported && Upper(to) in Supported ==>
              (r.Failure? <==> !ApiUsable(response, Upper(to)) && FallbackRate(Upper(from), Upper(to)).Failure?)
    ensures r.Failure? && Upper(from) in Supported && Upper(to) in Supported ==>
              r.error == FallbackRate(Upper(from), Upper(to)).error
  {
    var f := Upper(from);
    var t := Upper(to);
    if f !in Supported then Failure("Currency " + f + " is not supported")
    else if t !in Supported then Failure("Currency " + t + " is not supported")
    else if ApiUsable(response, t) then
      var rate := response.value.rates.value[t];
      Success(Quote(f, t, rate, amount, Convert(amount, rate), Api))
    else match FallbackRate(f, t)
      case Failure(e) => Failure(e)
      case Success(rate) => Success(Quote(f, t, rate, amount, Convert(amount, rate), Fallback))
  }

  /** `convert_currency` is `get_exchange_rate` with the amount first. */
  function ConvertCurrency(amount: real, from: string, to: string, response: Option<ApiResponse>): (r: Result<Quote, string>)
    ensures r == GetExchangeRate(from, to, amount, response)
  {
    GetExchangeRate(from, to, amount, response)
  }

  /** Without a usable live rate, a currency converts to itself at rate 1,
      whatever its spelling. */
  lemma SameCurrencyIsIdentity(code: string, amount: real, response: Option<ApiResponse>)
    requires Upper(code) in Supported && !ApiUsable(response, Upper(code))
    ensures GetExchangeRate(code, code, amount, response)
            == Success(Quote(Upper(code), Upper(code), 1.0, amount, amount, Fallback))
  {
  }

  /** `list_supported_currencies` returns a copy of the list; with values,
      the copy is the list itself and no caller can change the service's. */
  function ListSupportedCurrencies(): (r: seq<string>)
    ensures |r| == 9
    ensures forall i, j :: 0 <= i < j < |r| ==> r[i] != r[j]
    ensures forall c :: c in r <==> c in Supported
  {
    Supported
  }

  /** One value of the `rates` dictionary of `get_multiple_rates`. */
  datatype RateEntry = Rate(rate: real) | RateError(message: string)

  datatype MultipleRates = MultipleRates(base: string, rates: map<string, RateEntry>)

  /** The entry for one target: its rate, or `"Error: "` and the message of
      the exception `get_exchange_rate` raised. */
  function RateFor(base: string, target: string, response: Option<ApiResponse>): (e: RateEntry)
    ensures e.RateError? <==> GetExchangeRate(base, target, 1.0, response).Failure?
    ensures e.Rate? ==> e.rate == GetExchangeRate(base, target, 1.0, response).value.rate
    ensures e.RateError? ==> e.message == "Error: " + GetExchangeRate(base, target, 1.0, response).error
  {
    match GetExchangeRate(base, target, 1.0, response)
    case Success(q) => Rate(q.rate)
    case Failure(msg) => RateError("Error: " + msg)
  }

  /** No later position of `s` before `i` repeats `s[j]`. */
  predicate LastBefore(s: seq<string>, j: int, i: int)
    requires 0 <= j < i <= |s|
  {
    forall k :: j < k < i ==> s[k] != s[j]
  }

  /** `get_multiple_rates`: one entry per requested target, keyed by the
      target as given; a failing target records its error instead of
      aborting. A target requested twice keeps its last result. `responses[i]`
      is what the request made for `targets[i]` returned. */
  method GetMultipleRates(from: string, targets: seq<string>, responses: seq<Option<ApiResponse>>)
    returns (r: MultipleRates)
    requires |responses| == |targets|
    ensures r.base == Upper(from)
    ensures r.rates.Keys == set t | t in targets
    ensures forall j :: 0 <= j < |targets| && LastBefore(targets, j, |targets|) ==>
              r.rates[targets[j]] == RateFor(Upper(from), targets[j], responses[j])
  {
    var base := Upper(from);
    var rates: map<string, RateEntry> := map[];
    var i := 0;
    while i < |targets|
      invariant 0 <= i <= |targets|
      invariant rates.Keys == set t | t in targets[..i]
      invariant forall j :: 0 <= j < i && LastBefore(targets, j, i) ==>
                  rates[targets[j]] == RateFor(base, targets[j], responses[j])
    {
      assert targets[..i + 1] == targets[..i] + [targets[i]];
      var next := rates[targets[i] := RateFor(base, targets[i], responses[i])];
      forall j | 0 <= j < i + 1 && LastBefore(targets, j, i + 1)
        ensures next[targets[j]] == RateFor(base, targets[j], responses[j])
      {
        if j < i {
          assert LastBefore(targets, j, i) && targets[i] != targets[j];
        }
      }
      rates := next;
      i := i + 1;
    }
    assert targets[..i] == targets;
    r := MultipleRates(base, rates);
  }

  /** What a tool function returns: the result, or `{'error': msg}`. */
  datatype Reply<T> = Reply(value: T) | ErrorReply(error: string)

  /** The `try`/`except` of every tool function: nothing is raised, an
      exception becomes its message. */
  function ToReply<T>(r: Result<T, string>): (reply: Reply<T>)
    ensures reply.ErrorReply? <==> r.Failure?
    ensures reply.Reply? ==> reply.value == r.value
    ensures reply.ErrorReply? ==> reply.error == r.error
  {
    match r
    case Success(v) => Reply(v)
    case Failure(e) => ErrorReply(e)
  }

  /** The tool function `get_exchange_rate`. */
  function GetExchangeRateTool(from: string, to: string, amount: real, response: Option<ApiResponse>): (reply: Reply<Quote>)
    ensures reply.ErrorReply? <==> GetExchangeRate(from, to, amount, response).Failure?
    ensures reply.Reply? ==> reply.value == GetExchangeRate(from, to, amount, response).value
    ensures reply.ErrorReply? ==> reply.error == GetExchangeRate(from, to, amount, response).error
    ensures Upper(from) !in Supported ==> reply == ErrorReply("Currency " + Upper(from) + " is not supported")
  {
    ToReply(GetExchangeRate(from, to, amount, response))
  }

  /** The tool function `convert_currency`. */
  function ConvertCurrencyTool(amount: real, from: string, to: string, response: Option<ApiResponse>): (reply: Reply<Quote>)
    ensures reply.ErrorReply? <==> GetExchangeRate(from, to, amount, response).Failure?
    ensures reply.Reply? ==> reply.value == GetExchangeRate(from, to, amount, response).value
    ensures reply.ErrorReply? ==> reply.error == GetExchangeRate(from, to, amount, response).error
    ensures reply.Reply? ==> reply.value.convertedAmount == Convert(amount, reply.value.rate)
  {
    ToReply(ConvertCurrency(amount, from, to, response))
  }

  datatype SupportedList = SupportedList(currencies: seq<string>, count: nat)

  /** The tool function `list_supported_currencies`: the list and its size. */
  function ListSupportedCurrenciesTool(): (reply: Reply<SupportedList>)
    ensures reply.Reply? && reply.value.count == |reply.value.currencies| == 9
    ensures reply.value.currencies == Supported
  {
    var currencies := ListSupportedCurrencies();
    Reply(SupportedList(currencies, |currencies|))
  }

  /** `[c.strip().upper() for c in to_currencies.split(',')]` */
  function ParseTargets(toCurrencies: string): (r: seq<string>)
    ensures |r| == Count(toCurrencies, ',') + 1
    ensures forall i :: 0 <= i < |r| ==> Normalized(r[i])
    ensures var parts := Split(toCurrencies, ',');
            |r| == |parts| && forall i :: 0 <= i < |r| ==> r[i] == Normalize(parts[i])
  {
    var parts := Split(toCurrencies, ',');
    SplitCount(toCurrencies, ',');
    var r := seq(|parts|, i requires 0 <= i < |parts| => Normalize(parts[i]));
    r
  }

  /** A target as the tool passes it on: no separator, upper case, no
      surrounding whitespace. */
  predicate Normalized(code: string) {
    && ',' !in code
    && Upper(code) == code
    && (|code| > 0 ==> !IsSpace(code[0]) && !IsSpace(code[|code| - 1]))
  }

  /** `c.strip().upper()` for one part. */
  function Normalize(part: string): (r: string)
    requires ',' !in part
    ensures Normalized(r)
    ensures exists i, j ::
              && 0 <= i <= j <= |part| && r == Upper(part[i..j])
              && (forall k :: 0 <= k < i ==> IsSpace(part[k]))
              && (forall k :: j <= k < |part| ==> IsSpace(part[k]))
  {
    var st := Strip(part);
    StripMembers(part);
    UpperOfStripped(st);
    UpperOfSlice(part);
    Upper(st)
  }

  /** Upper-casing the stripped part is upper-casing a slice of the part with
      only whitespace outside it. */
  lemma UpperOfSlice(part: string)
    ensures exists i, j ::
              && 0 <= i <= j <= |part| && Upper(Strip(part)) == Upper(part[i..j])
              && (forall k :: 0 <= k < i ==> IsSpace(part[k]))
              && (forall k :: j <= k < |part| ==> IsSpace(part[k]))
  {
    var st := Strip(part);
    var i, j :|
      && 0 <= i <= j <= |part| && st == part[i..j]
      && (forall k :: 0 <= k < i ==> IsSpace(part[k]))
      && (forall k :: j <= k < |part| ==> IsSpace(part[k]));
    assert Upper(st) == Upper(part[i..j]);
  }

  lemma UpperOfStripped(st: string)
    requires ',' !in st
    requires |st| > 0 ==> !IsSpace(st[0]) && !IsSpace(st[|st| - 1])
    ensures Normalized(Upper(st))
  {
    UpperKeepsNonLetter(st, ',');
    UpperIdempotent(st);
  }

  /** The tool function `get_multiple_rates`: targets are parsed from the
      comma-separated text; per-target failures are already entries, so the
      reply is never an error. */
  method GetMultipleRatesTool(from: string, toCurrencies: string, responses: seq<Option<ApiResponse>>)
    returns (reply: Reply<MultipleRates>)
    requires |responses| == |ParseTargets(toCurrencies)|
    ensures reply.Reply?
    ensures reply.value.base == Upper(from)
    ensures reply.value.rates.Keys == set t | t in ParseTargets(toCurrencies)
    ensures forall t :: t in reply.value.rates ==> Normalized(t)
    ensures var targets := ParseTargets(toCurrencies);
            forall j :: 0 <= j < |targets| && LastBefore(targets, j, |targets|) ==>
              reply.value.rates[targets[j]] == RateFor(Upper(from), targets[j], responses[j])
  {
    var targets := ParseTargets(toCurrencies);
    var result := GetMultipleRates(from, targets, responses);
    reply := Reply(result);
  }
}

=== FILE: log_store.dfy ===
/** The record store (`database.py`): the append-only `logs` table as a
    sequence of entries, its readers, and the `accounts` and `market` tables
    as maps. The store's clock reading is a parameter of each write. */
module LogStore {
  import opened Wrappers
  import opened Text

  /** One row of `logs`; `time` is the store-assigned timestamp. */
  datatype LogEntry = LogEntry(name: string, time: int, kind: string, message: string)

  /** The `logs` table in insertion order. */
  type Log = seq<LogEntry>

  const AccountKind: string := "account"
  const McpToolKind: string := "mcp_tool"

  // ---------------------------------------------------------------------------
  // Writing
  // ---------------------------------------------------------------------------

  /** `write_log`: appends one entry under the lower-cased name, stamped with
      the store's clock; nothing already stored changes. */
  function WriteLog(log: Log, now: int, name: string, kind: string, message: string): (r: Log)
    ensures |r| == |log| + 1
    ensures r[..|log|] == log
    ensures r[|log|] == LogEntry(Lower(name), now, kind, message)
  {
    log + [LogEntry(Lower(name), now, kind, message)]
  }

  /** Timestamps never decrease along the sequence. */
  predicate Chronological(s: Log) {
    forall i, j :: 0 <= i < j < |s| ==> s[i].time <= s[j].time
  }

  predicate TimesAtMost(s: Log, t: int) {
    forall e :: e in s ==> e.time <= t
  }

  /** A store whose clock does not run backwards stays chronological. */
  lemma WriteKeepsChronological(log: Log, now: int, name: string, kind: string, message: string)
    requires Chronological(log) && TimesAtMost(log, now)
    ensures Chronological(WriteLog(log, now, name, kind, message))
  {
    var r := WriteLog(log, now, name, kind, message);
    forall i, j | 0 <= i < j < |r|
      ensures r[i].time <= r[j].time
    {
      assert r[i] == log[i];
      if j < |log| {
        assert r[j] == log[j];
      } else {
        assert log[i] in log;
      }
    }
  }

  // ---------------------------------------------------------------------------
  // Filtering and ordering
  // ---------------------------------------------------------------------------

  /** The three WHERE clauses the readers use besides the name. */
  datatype KindFilter = AnyKind | OnlyKind(kind: string) | ExceptKind(kind: string)

  /** `name = lower(?)`, plus the type condition. */
  predicate Matches(e: LogEntry, name: string, f: KindFilter) {
    && e.name == Lower(name)
    && match f
       case AnyKind => true
       case OnlyKind(k) => e.kind == k
       case ExceptKind(k) => e.kind != k
  }

  /** The matching rows, in insertion order: each matching entry as often as
      it is stored, nothing else. */
  function Select(log: Log, name: string, f: KindFilter): (r: Log)
    ensures |r| <= |log|
    decreases |log|
  {
    if |log| == 0 then []
    else
      var init := log[..|log| - 1];
      var last := log[|log| - 1];
      Select(init, name, f) + (if Matches(last, name, f) then [last] else [])
  }

  lemma {:induction false} SelectCount(log: Log, name: string, f: KindFilter)
    ensures forall e :: multiset(Select(log, name, f))[e] == if Matches(e, name, f) then multiset(log)[e] else 0
    decreases |log|
  {
    if |log| > 0 {
      var init := log[..|log| - 1];
      var last := log[|log| - 1];
      var tail := if Matches(last, name, f) then [last] else [];
      assert multiset(log) == multiset(init) + multiset{last} by { assert log == init + [last]; }
      assert multiset(Select(log, name, f)) == multiset(Select(init, name, f)) + multiset(tail);
      SelectCount(init, name, f);
    }
  }

  lemma SelectMembers(log: Log, name: string, f: KindFilter)
    ensures forall e :: e in Select(log, name, f) <==> e in log && Matches(e, name, f)
  {
    var r := Select(log, name, f);
    SelectCount(log, name, f);
    forall e
      ensures e in r <==> e in log && Matches(e, name, f)
    {
      assert e in r <==> multiset(r)[e] > 0;
      assert e in log <==> multiset(log)[e] > 0;
    }
  }

  /** Filtering a chronological store keeps it chronological. */
  lemma {:induction false} SelectChronological(log: Log, name: string, f: KindFilter)
    requires Chronological(log)
    ensures Chronological(Select(log, name, f))
    decreases |log|
  {
    if |log| > 0 {
      var init := log[..|log| - 1];
      var last := log[|log| - 1];
      SelectChronological(init, name, f);
      SelectMembers(init, name, f);
      var s := Select(init, name, f);
      forall i | 0 <= i < |s|
        ensures s[i].time <= last.time
      {
        assert s[i] in init;
        var j :| 0 <= j < |init| && init[j] == s[i];
        assert log[j] == s[i];
      }
    }
  }

  /** Inserting after every entry no later than `e` keeps the order, and
      equal timestamps keep insertion order. */
  function Insert(s: Log, e: LogEntry): (r: Log)
    requires Chronological(s)
    ensures |r| == |s| + 1
    ensures multiset(r) == multiset(s) + multiset{e}
    ensures Chronological(r)
    decreases |s|
  {
    if |s| == 0 || s[|s| - 1].time <= e.time then s + [e]
    else
      var init := s[..|s| - 1];
      var last := s[|s| - 1];
      assert s == init + [last];
      ChronologicalInit(s);
      var ins := Insert(init, e);
      BoundedSnoc(init, e, last.time);
      assert multiset(init + [e]) == multiset(init) + multiset{e};
      BoundedByMultiset(ins, init + [e], last.time);
      ChronologicalSnoc(ins, last);
      ins + [last]
  }

  lemma ChronologicalInit(s: Log)
    requires Chronological(s) && |s| > 0
    ensures Chronological(s[..|s| - 1]) && TimesAtMost(s[..|s| - 1], s[|s| - 1].time)
  {
    var init := s[..|s| - 1];
    forall x | x in init
      ensures x.time <= s[|s| - 1].time
    {
      var i :| 0 <= i < |init| && init[i] == x;
      assert s[i] == x;
    }
  }

  lemma ChronologicalSnoc(s: Log, e: LogEntry)
    requires Chronological(s) && TimesAtMost(s, e.time)
    ensures Chronological(s + [e])
  {
    var r := s + [e];
    forall i, j | 0 <= i < j < |r|
      ensures r[i].time <= r[j].time
    {
      assert r[i] == s[i];
      if j < |s| {
        assert r[j] == s[j];
      } else {
        assert s[i] in s;
      }
    }
  }

  lemma BoundedSnoc(s: Log, e: LogEntry, b: int)
    requires TimesAtMost(s, b) && e.time <= b
    ensures TimesAtMost(s + [e], b)
  {
    forall x | x in s + [e]
      ensures x.time <= b
    {
      if x != e {
        assert x in s;
      }
    }
  }

  /** Bounds carry over to any rearrangement. */
  lemma BoundedByMultiset(s: Log, t: Log, b: int)
    requires multiset(s) == multiset(t) && TimesAtMost(t, b)
    ensures TimesAtMost(s, b)
  {
    forall x | x in s
      ensures x.time <= b
    {
      assert x in multiset(t);
    }
  }

  /** A stable ascending sort by timestamp: the model's reading of
      `ORDER BY datetime`, with ties broken by insertion order. */
  function SortByTime(s: Log): (r: Log)
    ensures |r| == |s|
    ensures multiset(r) == multiset(s)
    ensures Chronological(r)
    decreases |s|
  {
    if |s| == 0 then []
    else
      assert s == s[..|s| - 1] + [s[|s| - 1]];
      Insert(SortByTime(s[..|s| - 1]), s[|s| - 1])
  }

  /** Sorting what is already in order changes nothing. */
  lemma {:induction false} SortChronologicalIsIdentity(s: Log)
    requires Chronological(s)
    ensures SortByTime(s) == s
    decreases |s|
  {
    if |s| > 0 {
      var init := s[..|s| - 1];
      var last := s[|s| - 1];
      assert s == init + [last];
      assert Chronological(init) && TimesAtMost(init, last.time) by { ChronologicalInit(s); }
      assert SortByTime(init) == init by { SortChronologicalIsIdentity(init); }
      assert Insert(init, last) == s by { InsertAtEnd(init, last); }
      SortStep(s, init, last);
    }
  }

  /** The sort places the last entry into the sorted rest. */
  lemma SortStep(s: Log, init: Log, last: LogEntry)
    requires |s| > 0 && init == s[..|s| - 1] && last == s[|s| - 1]
    ensures SortByTime(s) == Insert(SortByTime(init), last)
  {
  }

  lemma InsertAtEnd(s: Log, e: LogEntry)
    requires Chronological(s) && TimesAtMost(s, e.time)
    ensures Insert(s, e) == s + [e]
  {
    if |s| > 0 {
      assert s[|s| - 1] in s;
    }
  }

  /** Every entry left out of `r` is no later than every entry in it. */
  ghost predicate MostRecent(r: Log, s: Log) {
    && multiset(r) <= multiset(s)
    && forall e, x :: e in multiset(s) - multiset(r) && x in r ==> e.time <= x.time
  }

  /** `ORDER BY datetime DESC LIMIT n`, read back in chronological order: the
      `n` latest entries of `s` (all of them when there are fewer). */
  function Recent(s: Log, n: nat): (r: Log)
    ensures |r| == Min(n, |s|)
    ensures Chronological(r)
    ensures MostRecent(r, s)
    ensures n >= |s| ==> multiset(r) == multiset(s)
  {
    var t := SortByTime(s);
    var k := |t| - Min(n, |t|);
    SuffixIsMostRecent(t, k);
    t[k..]
  }

  lemma RecentMembers(s: Log, n: nat)
    ensures forall e :: e in Recent(s, n) ==> e in s
  {
    var r := Recent(s, n);
    forall e | e in r
      ensures e in s
    {
      assert multiset(r)[e] > 0;
    }
  }

  lemma SuffixIsMostRecent(t: Log, k: nat)
    requires Chronological(t) && k <= |t|
    ensures MostRecent(t[k..], t)
  {
    var p, q := t[..k], t[k..];
    assert t == p + q;
    assert multiset(t) - multiset(q) == multiset(p);
    forall e, x | e in multiset(t) - multiset(q) && x in q
      ensures e.time <= x.time
    {
      PrefixNoLater(t, k, e, x);
    }
  }

  lemma PrefixNoLater(t: Log, k: nat, e: LogEntry, x: LogEntry)
    requires Chronological(t) && k <= |t|
    requires e in t[..k] && x in t[k..]
    ensures e.time <= x.time
  {
    var i :| 0 <= i < k && t[..k][i] == e;
    var j :| 0 <= j < |t| - k && t[k..][j] == x;
    assert t[i] == e && t[k + j] == x;
  }

  // ---------------------------------------------------------------------------
  // Readers
  // ---------------------------------------------------------------------------

  /** `read_log`: at most `n` entries for the name (case ignored), the most
      recent ones, oldest first. */
  function ReadLog(log: Log, name: string, n: nat): (r: Log)
    ensures |r| == Min(n, |Select(log, name, AnyKind)|)
    ensures forall e :: e in r ==> e in log && e.name == Lower(name)
    ensures Chronological(r)
    ensures MostRecent(r, Select(log, name, AnyKind))
  {
    var r := Recent(Select(log, name, AnyKind), n);
    SelectMembers(log, name, AnyKind);
    RecentMembers(Select(log, name, AnyKind), n);
    r
  }

  /** `read_mcp_tool_logs`: as `ReadLog`, restricted to `mcp_tool` entries. */
  function ReadMcpToolLogs(log: Log, name: string, n: nat): (r: Log)
    ensures |r| == Min(n, |Select(log, name, OnlyKind(McpToolKind))|)
    ensures forall e :: e in r ==> e in log && e.name == Lower(name) && e.kind == McpToolKind
    ensures Chronological(r)
    ensures MostRecent(r, Select(log, name, OnlyKind(McpToolKind)))
  {
    var r := Recent(Select(log, name, OnlyKind(McpToolKind)), n);
    SelectMembers(log, name, OnlyKind(McpToolKind));
    RecentMembers(Select(log, name, OnlyKind(McpToolKind)), n);
    r
  }

  /** The account entries `read_log_prioritized` takes: up to `n` latest. */
  function AccountWindow(log: Log, name: string, n: nat): (r: Log)
    ensures |r| == Min(n, |Select(log, name, OnlyKind(AccountKind))|)
    ensures MostRecent(r, Select(log, name, OnlyKind(AccountKind)))
  {
    Recent(Select(log, name, OnlyKind(AccountKind)), n)
  }

  /** The other entries it takes: only when slots remain, and then up to the
      number of remaining slots. */
  function OtherWindow(log: Log, name: string, n: nat): (r: Log)
    ensures var slots := n - |AccountWindow(log, name, n)|;
            && (slots <= 0 ==> r == [])
            && (slots > 0 ==> |r| == Min(slots, |Select(log, name, ExceptKind(AccountKind))|))
            && MostRecent(r, Select(log, name, ExceptKind(AccountKind)))
  {
    var slots := n - |AccountWindow(log, name, n)|;
    if slots > 0 then Recent(Select(log, name, ExceptKind(AccountKind)), slots) else []
  }

  /** `read_log_prioritized`. The source sorts `account_logs + other_logs`
      (each newest first) by time descending with a stable sort and reverses
      the result; that equals a stable ascending sort of the two windows taken
      oldest first, other entries before account entries. */
  function ReadLogPrioritized(log: Log, name: string, n: nat): (r: Log)
    ensures var a := |Select(log, name, OnlyKind(AccountKind))|;
            var o := |Select(log, name, ExceptKind(AccountKind))|;
            |r| == Min(n, a) + (if n - Min(n, a) > 0 then Min(n - Min(n, a), o) else 0)
    ensures |r| <= n
    ensures multiset(r) == multiset(AccountWindow(log, name, n)) + multiset(OtherWindow(log, name, n))
    ensures Chronological(r)
    ensures forall e :: e in r ==> e in log && e.name == Lower(name)
    ensures |Select(log, name, OnlyKind(AccountKind))| >= n ==> forall e :: e in r ==> e.kind == AccountKind
    ensures |Select(log, name, OnlyKind(AccountKind))| < n ==>
              forall e :: e in log && Matches(e, name, OnlyKind(AccountKind)) ==> e in r
  {
    var accounts := AccountWindow(log, name, n);
    var others := OtherWindow(log, name, n);
    var r := SortByTime(others + accounts);
    PrioritizedLength(log, name, n);
    PrioritizedMembers(log, name, n, r);
    PrioritizedAccountsOnly(log, name, n, r);
    PrioritizedKeepsAccounts(log, name, n, r);
    r
  }

  lemma PrioritizedLength(log: Log, name: string, n: nat)
    ensures var a := |Select(log, name, OnlyKind(AccountKind))|;
            var o := |Select(log, name, ExceptKind(AccountKind))|;
            && |AccountWindow(log, name, n)| + |OtherWindow(log, name, n)|
               == Min(n, a) + (if n - Min(n, a) > 0 then Min(n - Min(n, a), o) else 0)
            && |AccountWindow(log, name, n)| + |OtherWindow(log, name, n)| <= n
  {
    var a := |Select(log, name, OnlyKind(AccountKind))|;
    var o := |Select(log, name, ExceptKind(AccountKind))|;
    var aw := AccountWindow(log, name, n);
    var ow := OtherWindow(log, name, n);
    assert |aw| == Min(n, a);
    if n - |aw| > 0 {
      assert |ow| == Min(n - |aw|, o);
    } else {
      assert ow == [];
    }
  }

  lemma PrioritizedMembers(log: Log, name: string, n: nat, r: Log)
    ensures multiset(r) == multiset(OtherWindow(log, name, n) + AccountWindow(log, name, n)) ==> forall e :: e in r ==> e in log && e.name == Lower(name)
  {
    if multiset(r) == multiset(OtherWindow(log, name, n) + AccountWindow(log, name, n)) {
      var accounts := AccountWindow(log, name, n);
      var others := OtherWindow(log, name, n);
      UnionMembers(r, others, accounts);
      WindowMembers(log, name, OnlyKind(AccountKind), accounts);
      WindowMembers(log, name, ExceptKind(AccountKind), others);
      forall e | e in r
        ensures e in log && e.name == Lower(name)
      {
        assert e in others || e in accounts;
      }
    }
  }

  lemma PrioritizedKeepsAccounts(log: Log, name: string, n: nat, r: Log)
    ensures multiset(r) == multiset(OtherWindow(log, name, n) + AccountWindow(log, name, n)) && |Select(log, name, OnlyKind(AccountKind))| < n ==>
              forall e :: e in log && Matches(e, name, OnlyKind(AccountKind)) ==> e in r
  {
    if multiset(r) == multiset(OtherWindow(log, name, n) + AccountWindow(log, name, n)) && |Select(log, name, OnlyKind(AccountKind))| < n {
      var accounts := AccountWindow(log, name, n);
      UnionMembers(r, OtherWindow(log, name, n), accounts);
      AllAccountsKept(log, name, n, accounts);
    }
  }

  lemma PrioritizedAccountsOnly(log: Log, name: string, n: nat, r: Log)
    ensures multiset(r) == multiset(OtherWindow(log, name, n) + AccountWindow(log, name, n)) && |Select(log, name, OnlyKind(AccountKind))| >= n ==>
              forall e :: e in r ==> e.kind == AccountKind
  {
    if multiset(r) == multiset(OtherWindow(log, name, n) + AccountWindow(log, name, n)) && |Select(log, name, OnlyKind(AccountKind))| >= n {
      // With at least `n` account entries no other entry is fetched.
      var accounts := AccountWindow(log, name, n);
      OtherWindowEmpty(log, name, n);
      UnionMembers(r, OtherWindow(log, name, n), accounts);
      AccountWindowKinds(log, name, n, accounts);
    }
  }

  lemma OtherWindowEmpty(log: Log, name: string, n: nat)
    requires |Select(log, name, OnlyKind(AccountKind))| >= n
    ensures OtherWindow(log, name, n) == []
  {
  }

  lemma AccountWindowKinds(log: Log, name: string, n: nat, accounts: Log)
    requires accounts == AccountWindow(log, name, n)
    ensures forall e :: e in accounts ==> e.kind == AccountKind
  {
    WindowMembers(log, name, OnlyKind(AccountKind), accounts);
  }

  lemma UnionMembers(r: Log, a: Log, b: Log)
    requires multiset(r) == multiset(a + b)
    ensures forall e :: e in r <==> e in a || e in b
  {
    assert multiset(a + b) == multiset(a) + multiset(b);
    forall e
      ensures e in r <==> e in a || e in b
    {
      assert e in r <==> e in multiset(r);
    }
  }

  lemma AllAccountsKept(log: Log, name: string, n: nat, accounts: Log)
    requires accounts == AccountWindow(log, name, n)
    requires |Select(log, name, OnlyKind(AccountKind))| < n
    ensures forall e :: e in log && Matches(e, name, OnlyKind(AccountKind)) ==> e in accounts
  {
    var sa := Select(log, name, OnlyKind(AccountKind));
    assert multiset(accounts) == multiset(sa);
    SelectMembers(log, name, OnlyKind(AccountKind));
    forall e | e in log && Matches(e, name, OnlyKind(AccountKind))
      ensures e in accounts
    {
      assert e in multiset(sa);
    }
  }

  lemma WindowMembers(log: Log, name: string, f: KindFilter, w: Log)
    requires multiset(w) <= multiset(Select(log, name, f))
    ensures forall e :: e in w ==> e in log && Matches(e, name, f)
  {
    SelectMembers(log, name, f);
    forall e | e in w
      ensures e in log && Matches(e, name, f)
    {
      assert e in multiset(w);
    }
  }

  /** Readers lower-case the queried name, so any case variant reads the same. */
  lemma ReadIgnoresCase(log: Log, a: string, b: string, n: nat)
    requires Lower(a) == Lower(b)
    ensures ReadLog(log, a, n) == ReadLog(log, b, n)
    ensures ReadMcpToolLogs(log, a, n) == ReadMcpToolLogs(log, b, n)
    ensures ReadLogPrioritized(log, a, n) == ReadLogPrioritized(log, b, n)
  {
    assert forall e, f :: Matches(e, a, f) == Matches(e, b, f);
    SelectSameMatches(log, a, b, AnyKind);
    SelectSameMatches(log, a, b, OnlyKind(McpToolKind));
    SelectSameMatches(log, a, b, OnlyKind(AccountKind));
    SelectSameMatches(log, a, b, ExceptKind(AccountKind));
  }

  lemma {:induction false} SelectSameMatches(log: Log, a: string, b: string, f: KindFilter)
    requires Lower(a) == Lower(b)
    ensures Select(log, a, f) == Select(log, b, f)
    decreases |log|
  {
    if |log| > 0 {
      SelectSameMatches(log[..|log| - 1], a, b, f);
    }
  }

  /** On a chronological store, a read is simply the tail of that name's
      entries in insertion order. */
  lemma ReadChronologicalIsSuffix(log: Log, name: string, n: nat)
    requires Chronological(log)
    ensures var s := Select(log, name, AnyKind);
            ReadLog(log, name, n) == s[|s| - Min(n, |s|)..]
  {
    SelectChronological(log, name, AnyKind);
    SortChronologicalIsIdentity(Select(log, name, AnyKind));
  }

  /** Written then read back under any case variant of the name: with a clock
      that does not run backwards, the newest entry is the one just written. */
  lemma WriteThenReadLatest(log: Log, now: int, name: string, query: string, kind: string, message: string)
    requires Chronological(log) && TimesAtMost(log, now)
    requires Lower(query) == Lower(name)
    ensures ReadLog(WriteLog(log, now, name, kind, message), query, 1) == [LogEntry(Lower(name), now, kind, message)]
  {
    var log' := WriteLog(log, now, name, kind, message);
    var entry := LogEntry(Lower(name), now, kind, message);
    WriteKeepsChronological(log, now, name, kind, message);
    ReadChronologicalIsSuffix(log', query, 1);
    LowerIdempotent(name);
    assert log'[..|log'| - 1] == log;
    assert Matches(entry, query, AnyKind);
    var s := Select(log', query, AnyKind);
    assert s == Select(log, query, AnyKind) + [entry];
  }

  // ---------------------------------------------------------------------------
  // Accounts and market data
  // ---------------------------------------------------------------------------

  /** `write_account`: upsert under the lower-cased name. */
  function WriteAccount<V>(accounts: map<string, V>, name: string, account: V): (r: map<string, V>)
    ensures ReadAccount(r, name) == Some(account)
    ensures forall other :: Lower(other) != Lower(name) ==> ReadAccount(r, other) == ReadAccount(accounts, other)
    ensures r.Keys == accounts.Keys + {Lower(name)}
  {
    LowerIdempotent(name);
    accounts[Lower(name) := account]
  }

  /** `read_account`: `None` when no row exists for the lower-cased name. */
  function ReadAccount<V>(accounts: map<string, V>, name: string): (r: Option<V>)
    ensures r.Some? <==> Lower(name) in accounts
    ensures r.Some? ==> r.value == accounts[Lower(name)]
  {
    if Lower(name) in accounts then Some(accounts[Lower(name)]) else None
  }

  /** An account written under one spelling of a name is read back under any
      other case variant; a second write replaces the first. */
  lemma AccountRoundTrip<V>(accounts: map<string, V>, name: string, query: string, first: V, second: V)
    requires Lower(query) == Lower(name)
    ensures ReadAccount(WriteAccount(accounts, name, first), query) == Some(first)
    ensures ReadAccount(WriteAccount(WriteAccount(accounts, name, first), query, second), name) == Some(second)
  {
    LowerIdempotent(name);
    LowerIdempotent(query);
  }

  /** `write_market`: upsert keyed by the exact date string. */
  function WriteMarket<V>(market: map<string, V>, date: string, data: V): (r: map<string, V>)
    ensures ReadMarket(r, date) == Some(data)
    ensures forall other :: other != date ==> ReadMarket(r, other) == ReadMarket(market, other)
    ensures r.Keys == market.Keys + {date}
  {
    market[date := data]
  }

  /** `read_market`: `None` when no row exists for the date. */
  function ReadMarket<V>(market: map<string, V>, date: string): (r: Option<V>)
    ensures r.Some? <==> date in market
    ensures r.Some? ==> r.value == market[date]
  {
    if date in market then Some(market[date]) else None
  }
}

=== FILE: pipeline.dfy ===
/** The tracer wired to the store, as the system runs it: every lifecycle
    event goes through its handler, and the writes the handler makes are
    appended to the `logs` table. The tracer's clock (`time.time()`, in
    tenths of a second) and the store's clock (`datetime('now')`) are separate
    parameters. */
module Pipeline {
  import opened Wrappers
  import opened Text
  import Tracers
  import LogStore
  import Traders

  /** Performs `write_log` for each write, in order. */
  function Deliver(log: LogStore.Log, stamp: int, writes: seq<Tracers.LogWrite>): (r: LogStore.Log)
    ensures |r| == |log| + |writes|
    ensures r[..|log|] == log
    ensures forall i :: 0 <= i < |writes| ==>
              r[|log| + i] == LogStore.LogEntry(Lower(writes[i].name), stamp, writes[i].kind, writes[i].message)
    decreases |writes|
  {
    if |writes| == 0 then log
    else
      var next := LogStore.WriteLog(log, stamp, writes[0].name, writes[0].kind, writes[0].message);
      var r := Deliver(next, stamp, writes[1..]);
      assert r[..|next|][..|log|] == log;
      r
  }

  /** The four notifications the agent runtime sends the tracer. */
  datatype Event =
    | TraceStarted(trace: Tracers.Trace)
    | TraceEnded(trace: Tracers.Trace)
    | SpanStarted(span: Tracers.Span)
    | SpanEnded(span: Tracers.Span)

  function EventTraceId(e: Event): string {
    match e
    case TraceStarted(t) => t.traceId
    case TraceEnded(t) => t.traceId
    case SpanStarted(s) => s.traceId
    case SpanEnded(s) => s.traceId
  }

  /** The open-span map and the `logs` table together. */
  datatype System = System(starts: Tracers.StartTimes, log: LogStore.Log)

  /** Handles one event. A handler that raises (an id without `_`) has
      changed nothing by then. */
  function Handle(sys: System, event: Event, clock: int, stamp: int): (r: System)
    ensures |sys.log| <= |r.log| <= |sys.log| + 1
    ensures r.log[..|sys.log|] == sys.log
    ensures !Tracers.Owned(EventTraceId(event)) ==> r == sys
    ensures Tracers.Owned(EventTraceId(event)) ==>
              var w := Dispatch(sys.starts, event, clock).value.writes[0];
              && |r.log| == |sys.log| + 1
              && r.log[|sys.log|] == LogStore.LogEntry(Lower(Tracers.OwnerOf(EventTraceId(event))), stamp, w.kind, w.message)
              && r.starts == Dispatch(sys.starts, event, clock).value.starts
  {
    match Dispatch(sys.starts, event, clock)
    case Failure(_) => sys
    case Success(s) => System(s.starts, Deliver(sys.log, stamp, s.writes))
  }

  /** The handler an event goes to. Trace events leave the open-span map
      alone and write the `Started:`/`Ended:` row; a span start records the
      clock under the span's key; a span end removes the key and writes the
      time elapsed since the recorded start. An owned event always makes
      exactly one write, under its owner; an unowned one makes none. */
  function Dispatch(starts: Tracers.StartTimes, event: Event, clock: int): (r: Result<Tracers.Step, string>)
    ensures r.Failure? <==> '_' !in EventTraceId(event)
    ensures r.Success? && !Tracers.Owned(EventTraceId(event)) ==> r.value == Tracers.Step(starts, [])
    ensures Tracers.Owned(EventTraceId(event)) ==>
              r.Success? && |r.value.writes| == 1 && r.value.writes[0].name == Tracers.OwnerOf(EventTraceId(event))
    ensures r.Success? && (event.TraceStarted? || event.TraceEnded?) ==> r.value.starts == starts
    ensures event.TraceStarted? && Tracers.Owned(event.trace.traceId) ==>
              r.value.writes[0].kind == "trace" && r.value.writes[0].message == "Started: " + event.trace.name
    ensures event.TraceEnded? && Tracers.Owned(event.trace.traceId) ==>
              r.value.writes[0].kind == "trace" && r.value.writes[0].message == "Ended: " + event.trace.name
    ensures event.SpanStarted? && Tracers.Owned(event.span.traceId) ==>
              var s := event.span;
              && r.value.starts == starts[Tracers.SpanKey(s.traceId, s.spanId) := clock]
              && r.value.writes[0].kind == Tracers.Category(s)
              && r.value.writes[0].message == Tracers.StartMessage(s)
    ensures event.SpanEnded? && Tracers.Owned(event.span.traceId) ==>
              var s := event.span;
              var key := Tracers.SpanKey(s.traceId, s.spanId);
              && r.value.starts == starts - {key}
              && r.value.writes[0].kind == Tracers.Category(s)
              && r.value.writes[0].message == Tracers.EndMessage(s, Tracers.Duration(starts, key, clock))
  {
    match event
    case TraceStarted(t) =>
      assert Tracers.PhaseWord(Tracers.Started) + ": " + t.name == "Started: " + t.name;
      Tracers.OnTrace(starts, t, Tracers.Started)
    case TraceEnded(t) =>
      assert Tracers.PhaseWord(Tracers.Ended) + ": " + t.name == "Ended: " + t.name;
      Tracers.OnTrace(starts, t, Tracers.Ended)
    case SpanStarted(s) => Tracers.OnSpanStart(starts, s, clock)
    case SpanEnded(s) => Tracers.OnSpanEnd(starts, s, clock)
  }

  /** One notification with the tracer's clock reading (`time.time()`, in
      tenths of a second) and the store's `datetime('now')` at its arrival. */
  datatype Arrival = Arrival(event: Event, clock: int, stamp: int)

  /** Handles events in order, each at its own clock readings. */
  function HandleAll(sys: System, arrivals: seq<Arrival>): System
    decreases |arrivals|
  {
    if |arrivals| == 0 then sys
    else
      var a := arrivals[0];
      HandleAll(Handle(sys, a.event, a.clock, a.stamp), arrivals[1..])
  }

  /** Events of unowned traces never reach the store and leave the open-span
      map alone, however many of them arrive and whenever they do. */
  lemma {:induction false} UnownedEventsLeaveNoTrace(sys: System, arrivals: seq<Arrival>)
    requires forall i :: 0 <= i < |arrivals| ==> !Tracers.Owned(EventTraceId(arrivals[i].event))
    ensures HandleAll(sys, arrivals) == sys
    decreases |arrivals|
  {
    if |arrivals| > 0 {
      UnownedEventsLeaveNoTrace(sys, arrivals[1..]);
    }
  }

  /** The store only grows: every entry present before a series of events is
      still there, in place, afterwards. */
  lemma {:induction false} HandleAllAppendOnly(sys: System, arrivals: seq<Arrival>)
    ensures var r := HandleAll(sys, arrivals);
            |sys.log| <= |r.log| <= |sys.log| + |arrivals| && r.log[..|sys.log|] == sys.log
    decreases |arrivals|
  {
    if |arrivals| > 0 {
      var a := arrivals[0];
      var next := Handle(sys, a.event, a.clock, a.stamp);
      HandleAllAppendOnly(next, arrivals[1..]);
      var r := HandleAll(next, arrivals[1..]);
      assert r.log[..|sys.log|] == r.log[..|next.log|][..|sys.log|];
    }
  }

  /** A span's duration survives the trip through the store: starting and
      then ending an owned span that was not open logs two rows, the second
      carrying the time between the two clock readings, and the open-span
      map returns to what it was. */
  lemma SpanTimedThroughStore(sys: System, span: Tracers.Span, t0: int, t1: int, s0: int, s1: int)
    ensures Tracers.Owned(span.traceId) && Tracers.SpanKey(span.traceId, span.spanId) !in sys.starts ==>
            var r := HandleAll(sys, [Arrival(SpanStarted(span), t0, s0), Arrival(SpanEnded(span), t1, s1)]);
            && r.starts == sys.starts
            && |r.log| == |sys.log| + 2
            && r.log[|sys.log|].message == Tracers.StartMessage(span)
            && r.log[|sys.log| + 1].message == Tracers.EndMessage(span, t1 - t0)
  {
    var key := Tracers.SpanKey(span.traceId, span.spanId);
    if Tracers.Owned(span.traceId) && key !in sys.starts {
      var mid := Handle(sys, SpanStarted(span), t0, s0);
      var fin := Handle(mid, SpanEnded(span), t1, s1);
      HandleTwo(sys, Arrival(SpanStarted(span), t0, s0), Arrival(SpanEnded(span), t1, s1));
      assert mid.starts == sys.starts[key := t0] && |mid.log| == |sys.log| + 1
             && mid.log[|sys.log|].message == Tracers.StartMessage(span);
      Tracers.EndStepTimes(sys.starts, key, t0, t1);
      assert fin.starts == sys.starts && |fin.log| == |sys.log| + 2
             && fin.log[|sys.log| + 1].message == Tracers.EndMessage(span, t1 - t0);
      assert fin.log[|sys.log|] == mid.log[|sys.log|] by {
        assert fin.log[..|mid.log|] == mid.log;
      }
    }
  }

  /** Two arrivals are handled one after the other. */
  lemma HandleTwo(sys: System, a: Arrival, b: Arrival)
    ensures HandleAll(sys, [a, b]) == Handle(Handle(sys, a.event, a.clock, a.stamp), b.event, b.clock, b.stamp)
  {
    var first := Handle(sys, a.event, a.clock, a.stamp);
    assert [a, b][1..] == [b];
    assert HandleAll(sys, [a, b]) == HandleAll(first, [b]);
    assert [b][1..] == [];
    assert HandleAll(first, [b]) == HandleAll(Handle(first, b.event, b.clock, b.stamp), []);
  }

  /** Starting an owned trace appends exactly the owner's "Started" row. */
  lemma StartedIsWritten(sys: System, trace: Tracers.Trace, clock: int, stamp: int)
    requires Tracers.Owned(trace.traceId)
    ensures Handle(sys, TraceStarted(trace), clock, stamp).log
            == LogStore.WriteLog(sys.log, stamp, Tracers.OwnerOf(trace.traceId), "trace", "Started: " + trace.name)
  {
    assert Tracers.PhaseWord(Tracers.Started) + ": " == "Started: ";
    var writes := [Tracers.LogWrite(Tracers.OwnerOf(trace.traceId), "trace", "Started: " + trace.name)];
    assert Tracers.OnTrace(sys.starts, trace, Tracers.Started) == Success(Tracers.Step(sys.starts, writes));
  }

  /** A trader's run is visible on its dashboard: once the trace of a run
      starts, reading the trader's latest log entry (under any spelling of the
      name) gives the "Started" entry for that run. */
  lemma TraderRunIsLogged(sys: System, t: Traders.Trader, pad: string, query: string, clock: int, stamp: int)
    requires Tracers.IsPadding(Lower(t.name), pad)
    requires t.name != "" && '0' !in t.name && '_' !in t.name
    requires LogStore.Chronological(sys.log) && LogStore.TimesAtMost(sys.log, stamp)
    requires Lower(query) == Lower(t.name)
    ensures var trace := Tracers.Trace(Traders.TraceId(t, pad), Traders.TraceName(t));
            var r := Handle(sys, TraceStarted(trace), clock, stamp);
            LogStore.ReadLog(r.log, query, 1)
            == [LogStore.LogEntry(Lower(t.name), stamp, "trace", "Started: " + Traders.TraceName(t))]
  {
    var trace := Tracers.Trace(Traders.TraceId(t, pad), Traders.TraceName(t));
    Traders.TraceIdOwner(t, pad);
    var owner := Lower(t.name);
    assert Tracers.Owned(trace.traceId) && Tracers.OwnerOf(trace.traceId) == owner;
    StartedIsWritten(sys, trace, clock, stamp);
    LowerIdempotent(t.name);
    LogStore.WriteThenReadLatest(sys.log, stamp, owner, query, "trace", "Started: " + Traders.TraceName(t));
  }
}

=== FILE: text.dfy ===
/** String helpers with the semantics of the Python built-ins the system uses:
    `str.lower`, `str.upper`, `in`, `str.split`, `str.strip`, and decimal
    rendering of integers. Letters are cased in the ASCII range only. */
module Text {
  import opened Wrappers

  function LowerChar(c: char): char {
    if 'A' <= c <= 'Z' then (c as int + 32) as char else c
  }

  function UpperChar(c: char): char {
    if 'a' <= c <= 'z' then (c as int - 32) as char else c
  }

  /** `s.lower()` */
  function Lower(s: string): (r: string)
    ensures |r| == |s|
    ensures forall i :: 0 <= i < |s| ==> r[i] == LowerChar(s[i])
  {
    seq(|s|, i requires 0 <= i < |s| => LowerChar(s[i]))
  }

  /** `s.upper()` */
  function Upper(s: string): (r: string)
    ensures |r| == |s|
    ensures forall i :: 0 <= i < |s| ==> r[i] == UpperChar(s[i])
  {
    seq(|s|, i requires 0 <= i < |s| => UpperChar(s[i]))
  }

  predicate IsLetter(c: char) {
    'A' <= c <= 'Z' || 'a' <= c <= 'z'
  }

  /** Lower-casing is idempotent, so a stored lower-cased name is found again
      by a reader that lower-cases its query. */
  lemma LowerIdempotent(s: string)
    ensures Lower(Lower(s)) == Lower(s)
  {
  }

  lemma UpperIdempotent(s: string)
    ensures Upper(Upper(s)) == Upper(s)
  {
  }

  /** Lower-casing neither creates nor removes a character that is not a letter. */
  lemma LowerKeepsNonLetter(s: string, c: char)
    requires !IsLetter(c)
    ensures c in Lower(s) <==> c in s
  {
    if c in s {
      var i :| 0 <= i < |s| && s[i] == c;
      assert Lower(s)[i] == c;
    }
    if c in Lower(s) {
      var i :| 0 <= i < |s| && Lower(s)[i] == c;
      assert s[i] == c;
    }
  }

  function Min(a: int, b: int): int { if a <= b then a else b }

  /** Upper-casing neither creates nor removes a character that is not a letter. */
  lemma UpperKeepsNonLetter(s: string, c: char)
    requires !IsLetter(c)
    ensures c in Upper(s) <==> c in s
  {
    if c in s {
      var i :| 0 <= i < |s| && s[i] == c;
      assert Upper(s)[i] == c;
    }
    if c in Upper(s) {
      var i :| 0 <= i < |s| && Upper(s)[i] == c;
      assert s[i] == c;
    }
  }

  /** `sub in s` for strings */
  predicate Contains(s: string, sub: string) {
    exists i :: 0 <= i <= |s| - |sub| && OccursAt(s, sub, i)
  }

  predicate OccursAt(s: string, sub: string, i: int)
    requires 0 <= i <= |s| - |sub|
  {
    s[i..i + |sub|] == sub
  }

  /** Position of the first occurrence of `c` in `s`, as `s.find(c)` without the -1. */
  function IndexOf(s: string, c: char): (r: Option<nat>)
    ensures r.None? <==> c !in s
    ensures r.Some? ==> r.value < |s| && s[r.value] == c && c !in s[..r.value]
  {
    if |s| == 0 then None
    else if s[0] == c then Some(0)
    else match IndexOf(s[1..], c)
      case None => None
      case Some(i) =>
        assert s[1..][..i] == s[1..i + 1];
        Some(i + 1)
  }

  /** The first occurrence is determined by any position holding `c` with no
      earlier `c`. */
  lemma IndexOfIsFirst(s: string, c: char, k: nat)
    requires k < |s| && s[k] == c && c !in s[..k]
    ensures IndexOf(s, c) == Some(k)
  {
    var i := IndexOf(s, c).value;
    assert s[..i] <= s[..k] ==> i <= k;
  }

  /** `s.split(c)[0]`: the text before the first `c`, or all of `s`. */
  function Before(s: string, c: char): (r: string)
    ensures c !in r
    ensures r <= s
    ensures c in s ==> |r| < |s| && s[|r|] == c
  {
    match IndexOf(s, c)
    case None => s
    case Some(i) => s[..i]
  }

  /** The part before the first `c` is followed by that `c`. */
  lemma BeforeSeparator(s: string, c: char)
    requires c in s
    ensures Before(s, c) + [c] <= s
  {
    var b := Before(s, c);
    assert s[..|b| + 1] == b + [c];
  }

  /** The text after the first `c`, or `None` when `c` does not occur
      (then `s.split(c)[1]` raises `IndexError`). */
  function After(s: string, c: char): (r: Option<string>)
    ensures r.None? <==> c !in s
  {
    match IndexOf(s, c)
    case None => None
    case Some(i) => Some(s[i + 1..])
  }

  lemma BeforeOfSplit(a: string, c: char, b: string)
    requires c !in a
    ensures Before(a + [c] + b, c) == a
    ensures After(a + [c] + b, c) == Some(b)
  {
    var s := a + [c] + b;
    assert s[..|a|] == a;
    IndexOfIsFirst(s, c, |a|);
    assert s[|a| + 1..] == b;
  }

  /** A separator already present in `a` is found before anything appended. */
  lemma BeforeOfPrefix(a: string, b: string, c: char)
    requires c in a
    ensures Before(a + b, c) == Before(a, c)
  {
    var k := IndexOf(a, c).value;
    assert (a + b)[..k] == a[..k];
    IndexOfIsFirst(a + b, c, k);
  }

  lemma BeforeAbsent(s: string, c: char)
    requires c !in s
    ensures Before(s, c) == s
  {
  }

  /** `s.split(sep)` for a one-character separator: always at least one part,
      and an empty string splits into one empty part. */
  function Split(s: string, sep: char): (r: seq<string>)
    ensures |r| >= 1
    ensures forall i :: 0 <= i < |r| ==> sep !in r[i]
    decreases |s|
  {
    match IndexOf(s, sep)
    case None => [s]
    case Some(i) => [s[..i]] + Split(s[i + 1..], sep)
  }

  /** `sep.join(parts)` */
  function Join(parts: seq<string>, sep: char): string
  {
    if |parts| == 0 then ""
    else if |parts| == 1 then parts[0]
    else parts[0] + [sep] + Join(parts[1..], sep)
  }

  function Count(s: string, c: char): nat
  {
    if |s| == 0 then 0 else (if s[0] == c then 1 else 0) + Count(s[1..], c)
  }

  lemma {:induction false} CountAppend(a: string, b: string, c: char)
    ensures Count(a + b, c) == Count(a, c) + Count(b, c)
    decreases |a|
  {
    if |a| == 0 {
      assert a + b == b;
    } else {
      assert (a + b)[1..] == a[1..] + b;
      CountAppend(a[1..], b, c);
    }
  }

  lemma {:induction false} CountAbsent(s: string, c: char)
    requires c !in s
    ensures Count(s, c) == 0
    decreases |s|
  {
    if |s| > 0 {
      CountAbsent(s[1..], c);
    }
  }

  lemma SplitStep(s: string, sep: char, i: nat)
    requires IndexOf(s, sep) == Some(i)
    ensures s == s[..i] + [sep] + s[i + 1..]
    ensures Split(s, sep) == [s[..i]] + Split(s[i + 1..], sep)
  {
  }

  lemma JoinCons(p: string, ps: seq<string>, sep: char)
    requires |ps| >= 1
    ensures Join([p] + ps, sep) == p + [sep] + Join(ps, sep)
  {
    assert ([p] + ps)[1..] == ps;
  }

  /** Splitting then joining with the same separator gives back the input. */
  lemma {:induction false} SplitJoin(s: string, sep: char)
    ensures Join(Split(s, sep), sep) == s
    decreases |s|
  {
    match IndexOf(s, sep)
    case None =>
    case Some(i) =>
      SplitStep(s, sep, i);
      SplitJoin(s[i + 1..], sep);
      JoinCons(s[..i], Split(s[i + 1..], sep), sep);
  }

  /** There is one more part than there are separators. */
  lemma {:induction false} SplitCount(s: string, sep: char)
    ensures |Split(s, sep)| == Count(s, sep) + 1
    decreases |s|
  {
    match IndexOf(s, sep)
    case None =>
      CountAbsent(s, sep);
    case Some(i) =>
      SplitStep(s, sep, i);
      SplitCount(s[i + 1..], sep);
      CountAppend(s[..i] + [sep], s[i + 1..], sep);
      CountAppend(s[..i], [sep], sep);
      CountAbsent(s[..i], sep);
      assert Count([sep], sep) == 1 by {
        assert [sep][1..] == [];
      }
  }

  /** The characters `str.strip()` removes: those `str.isspace()` accepts. */
  predicate IsSpace(c: char) {
    || '\t' <= c <= '\r'
    || '\U{1C}' <= c <= ' '
    || c == '\U{85}' || c == '\U{A0}' || c == '\U{1680}'
    || '\U{2000}' <= c <= '\U{200A}'
    || c == '\U{2028}' || c == '\U{2029}' || c == '\U{202F}' || c == '\U{205F}' || c == '\U{3000}'
  }

  function StripLeft(s: string): (r: string)
    ensures |r| <= |s| && r == s[|s| - |r|..]
    ensures forall i :: 0 <= i < |s| - |r| ==> IsSpace(s[i])
    ensures |r| > 0 ==> !IsSpace(r[0])
  {
    if |s| > 0 && IsSpace(s[0]) then StripLeft(s[1..]) else s
  }

  function StripRight(s: string): (r: string)
    ensures |r| <= |s| && r == s[..|r|]
    ensures forall i :: |r| <= i < |s| ==> IsSpace(s[i])
    ensures |r| > 0 ==> !IsSpace(r[|r| - 1])
  {
    if |s| > 0 && IsSpace(s[|s| - 1]) then StripRight(s[..|s| - 1]) else s
  }

  /** Stripping removes characters and adds none. */
  lemma StripMembers(s: string)
    ensures forall x :: x in Strip(s) ==> x in s
  {
    var i, j :| 0 <= i <= j <= |s| && Strip(s) == s[i..j];
    SliceMembers(s, i, j);
  }

  /** A slice past the first part of a concatenation is a slice of the second. */
  lemma SliceOfSecond(a: string, b: string, i: nat, j: nat)
    requires i <= j <= |b|
    ensures (a + b)[|a| + i..|a| + j] == b[i..j]
  {
  }

  lemma SliceMembers(s: string, i: int, j: int)
    requires 0 <= i <= j <= |s|
    ensures forall x :: x in s[i..j] ==> x in s
  {
    forall x | x in s[i..j]
      ensures x in s
    {
      var k :| 0 <= k < j - i && s[i..j][k] == x;
      assert s[i + k] == x;
    }
  }

  /** `s.strip()`: the slice of `s` left after removing surrounding blanks. */
  function Strip(s: string): (r: string)
    ensures exists i, j ::
              && 0 <= i <= j <= |s| && r == s[i..j]
              && (forall k :: 0 <= k < i ==> IsSpace(s[k]))
              && (forall k :: j <= k < |s| ==> IsSpace(s[k]))
    ensures |r| > 0 ==> !IsSpace(r[0]) && !IsSpace(r[|r| - 1])
  {
    var l := StripLeft(s);
    var r := StripRight(l);
    var i := |s| - |l|;
    assert r == s[i..i + |r|];
    r
  }

  function DigitChar(d: nat): (c: char)
    requires d < 10
    ensures '0' <= c <= '9'
  {
    (d + '0' as int) as char
  }

  predicate IsDigits(s: string) {
    forall i :: 0 <= i < |s| ==> '0' <= s[i] <= '9'
  }

  /** Decimal rendering of a natural number, as `str(n)`. */
  function NatToString(n: nat): (r: string)
    ensures |r| >= 1 && IsDigits(r)
    decreases n
  {
    if n < 10 then [DigitChar(n)] else NatToString(n / 10) + [DigitChar(n % 10)]
  }

  /** The value a string of decimal digits denotes (the inverse of `NatToString`). */
  function DigitsValue(s: string): nat
    requires IsDigits(s)
  {
    if |s| == 0 then 0
    else DigitsValue(s[..|s| - 1]) * 10 + (s[|s| - 1] as int - '0' as int)
  }

  lemma {:induction false} NatToStringRoundTrip(n: nat)
    ensures DigitsValue(NatToString(n)) == n
    decreases n
  {
    if n >= 10 {
      NatToStringRoundTrip(n / 10);
      var s := NatToString(n);
      assert s[..|s| - 1] == NatToString(n / 10);
    }
  }
}

=== FILE: tracers.dfy ===
/** The trace-id codec and the span lifecycle tracker (`tracers.py`).

    A trace id is `"trace_" + tag + "0" + padding`; the owner of a trace or
    span is recovered from its id. The tracker is modelled as state-passing
    handlers: each takes the map of open-span start times and returns the new
    map together with the log writes it performs (zero or one). The clock is a
    parameter counted in tenths of a second, and the random padding is a
    parameter drawn from `Alphanum`. */
module Tracers {
  import opened Wrappers
  import opened Text

  /** `string.ascii_lowercase + string.digits` */
  const Alphanum: string := "abcdefghijklmnopqrstuvwxyz0123456789"
  const TracePrefix: string := "trace_"
  /** Length of the part after `trace_` that `make_trace_id` aims for. */
  const IdBodyLength: nat := 32
  /** The character ending the owner's name inside a trace id. */
  const Marker: char := '0'

  // ---------------------------------------------------------------------------
  // Trace-id codec
  // ---------------------------------------------------------------------------

  /** `pad_len = 32 - len(tag + "0")`; a non-positive length draws nothing. */
  function PadLength(tag: string): nat {
    if |tag| + 1 < IdBodyLength then IdBodyLength - (|tag| + 1) else 0
  }

  /** What `secrets.choice(ALPHANUM)` can produce for `tag`: exactly
      `PadLength(tag)` characters of the alphabet. */
  predicate IsPadding(tag: string, pad: string) {
    && |pad| == PadLength(tag)
    && forall i :: 0 <= i < |pad| ==> pad[i] in Alphanum
  }

  /** `make_trace_id(tag)` with the random characters supplied as `pad`. */
  function MakeTraceId(tag: string, pad: string): (r: string)
    requires IsPadding(tag, pad)
    ensures |r| == |TracePrefix| + (if |tag| < IdBodyLength then IdBodyLength else |tag| + 1)
    ensures r[..|TracePrefix|] == TracePrefix
    ensures r[|TracePrefix|..|TracePrefix| + |tag|] == tag && r[|TracePrefix| + |tag|] == Marker
    ensures r[|TracePrefix| + |tag| + 1..] == pad
    ensures forall i :: |TracePrefix| + |tag| + 1 <= i < |r| ==> r[i] in Alphanum
  {
    TracePrefix + tag + [Marker] + pad
  }

  /** `trace_id.split("_")[1]`: the text between the first and second `_`. */
  function Segment(traceId: string): string
    requires '_' in traceId
  {
    Before(After(traceId, '_').value, '_')
  }

  /** `LogTracer.get_name`: `Failure` is the `IndexError` raised for an id
      without `_`; `None` means the segment holds no marker. */
  function GetName(traceId: string): (r: Result<Option<string>, string>)
    ensures r.Failure? <==> '_' !in traceId
    ensures r.Success? ==> (r.value.None? <==> Marker !in Segment(traceId))
    ensures r.Success? && r.value.Some? ==> Marker !in r.value.value && '_' !in r.value.value
  {
    if '_' !in traceId then Failure("list index out of range")
    else
      var name := Segment(traceId);
      if Marker in name then Success(Some(Before(name, Marker))) else Success(None)
  }

  /** A decoded name is the start of the segment, ended by the marker. */
  lemma NameEndsAtMarker(traceId: string)
    requires GetName(traceId).Success? && GetName(traceId).value.Some?
    ensures GetName(traceId).value.value + [Marker] <= Segment(traceId)
  {
    BeforeSeparator(Segment(traceId), Marker);
  }

  /** Decoding an encoded id recovers the tag up to its first marker; the
      padding plays no part. */
  lemma {:induction false} DecodeEncode(tag: string, pad: string)
    requires IsPadding(tag, pad)
    requires '_' !in tag
    ensures GetName(MakeTraceId(tag, pad)) == Success(Some(Before(tag, Marker)))
  {
    var body := tag + [Marker] + pad;
    SegmentOfTraceId(tag, pad);
    if Marker in tag {
      BeforeOfPrefix(tag, [Marker] + pad, Marker);
      assert body == tag + ([Marker] + pad);
    } else {
      BeforeOfSplit(tag, Marker, pad);
      BeforeAbsent(tag, Marker);
    }
  }

  /** The segment `get_name` inspects is everything after `trace_`. */
  lemma SegmentOfTraceId(tag: string, pad: string)
    requires IsPadding(tag, pad)
    requires '_' !in tag
    ensures '_' in MakeTraceId(tag, pad)
    ensures Segment(MakeTraceId(tag, pad)) == tag + [Marker] + pad
  {
    var body := tag + [Marker] + pad;
    assert MakeTraceId(tag, pad) == "trace" + ['_'] + body;
    PaddingAvoids(tag, pad, '_');
    assert '_' !in body;
    BeforeOfSplit("trace", '_', body);
    BeforeAbsent(body, '_');
  }

  /** Padding is drawn from `Alphanum`, so it never holds anything else. */
  lemma PaddingAvoids(tag: string, pad: string, c: char)
    requires IsPadding(tag, pad)
    requires c !in Alphanum
    ensures c !in pad
  {
  }

  /** The round trip the tracer relies on: a tag without `0` and `_` is
      recovered exactly, whatever the padding. */
  lemma TraceIdRoundTrip(tag: string, pad: string)
    requires IsPadding(tag, pad)
    requires Marker !in tag && '_' !in tag
    ensures GetName(MakeTraceId(tag, pad)) == Success(Some(tag))
  {
    DecodeEncode(tag, pad);
    BeforeAbsent(tag, Marker);
  }

  // ---------------------------------------------------------------------------
  // Lifecycle events
  // ---------------------------------------------------------------------------

  /** The typed payload of a span. `None` in an optional field is an absent
      attribute; the strings are the values as rendered in a message. */
  datatype SpanData = SpanData(kind: string, name: Option<string>, server: Option<string>, result: Option<string>)

  datatype Trace = Trace(traceId: string, name: string)

  /** `error` is the rendering of the span's error, `None` when it has none. */
  datatype Span = Span(traceId: string, spanId: string, data: Option<SpanData>, error: Option<string>)

  /** One `write_log(name, type, message)` call. */
  datatype LogWrite = LogWrite(name: string, kind: string, message: string)

  /** `tool_start_times`, keyed by `SpanKey`, holding clock readings. */
  type StartTimes = map<string, int>

  /** The tracker state after a handler and the writes it made, in order. */
  datatype Step = Step(starts: StartTimes, writes: seq<LogWrite>)

  /** Python truthiness of an optional string. */
  predicate Truthy(o: Option<string>) {
    o.Some? && o.value != ""
  }

  /** A trace or span is logged only when its id decodes to a non-empty name. */
  predicate Owned(traceId: string) {
    GetName(traceId).Success? && Truthy(GetName(traceId).value)
  }

  function OwnerOf(traceId: string): string
    requires Owned(traceId)
  {
    GetName(traceId).value.value
  }

  /** `f"{span.trace_id}_{span.span_id}"` */
  function SpanKey(traceId: string, spanId: string): string {
    traceId + "_" + spanId
  }

  /** For trace ids of one length (as `make_trace_id` produces for short
      tags), distinct (trace, span) pairs never share a key. */
  lemma SpanKeyInjective(t1: string, s1: string, t2: string, s2: string)
    requires |t1| == |t2|
    ensures SpanKey(t1, s1) == SpanKey(t2, s2) <==> t1 == t2 && s1 == s2
  {
    if SpanKey(t1, s1) == SpanKey(t2, s2) {
      assert t1 == SpanKey(t1, s1)[..|t1|];
      assert t2 == SpanKey(t2, s2)[..|t2|];
      assert s1 == SpanKey(t1, s1)[|t1| + 1..];
      assert s2 == SpanKey(t2, s2)[|t2| + 1..];
    }
  }

  predicate IsTool(span: Span) {
    span.data.Some? && span.data.value.kind == "function"
  }

  /** `span.span_data.type if span.span_data else "span"` */
  function SpanType(span: Span): string {
    if span.data.Some? then span.data.value.kind else "span"
  }

  /** The category a span event is logged under. */
  function Category(span: Span): (r: string)
    ensures r == "mcp_tool" <==> IsTool(span) || (span.data.Some? && span.data.value.kind == "mcp_tool")
    ensures !IsTool(span) ==> r == SpanType(span)
  {
    if IsTool(span) then "mcp_tool" else SpanType(span)
  }

  // ---------------------------------------------------------------------------
  // Message formatting
  // ---------------------------------------------------------------------------

  const Wrench: string := "\U{1F527} "
  const Arrow: string := " \U{2192} "
  const CheckMark: char := '\U{2705}'
  const CrossMark: char := '\U{274C}'
  const ResultLimit: nat := 100
  const ResultKeep: nat := 97

  /** `getattr(span_data, "name", "unknown_tool")` */
  function ToolName(d: SpanData): string {
    if d.name.Some? then d.name.value else "unknown_tool"
  }

  /** `" " + value` when the value is truthy, else nothing. */
  function Word(o: Option<string>): string {
    if Truthy(o) then " " + o.value else ""
  }

  /** The regular start and end message: `verb` followed by the type, name,
      server and error, each with a leading space and only when truthy. */
  function Describe(verb: string, data: Option<SpanData>, error: Option<string>): string {
    verb
    + (if data.Some? then Word(Some(data.value.kind)) + Word(data.value.name) + Word(data.value.server) else "")
    + Word(error)
  }

  /** The fields that appear in a regular message, in order. */
  function PresentFields(data: Option<SpanData>, error: Option<string>): seq<string> {
    (if data.Some? then Present(Some(data.value.kind)) + Present(data.value.name) + Present(data.value.server) else [])
    + Present(error)
  }

  function Present(o: Option<string>): seq<string> {
    if Truthy(o) then [o.value] else []
  }

  /** `" ".join(words)` */
  function Unwords(words: seq<string>): string
    decreases |words|
  {
    if |words| == 0 then ""
    else if |words| == 1 then words[0]
    else Unwords(words[..|words| - 1]) + " " + words[|words| - 1]
  }

  lemma UnwordsSnoc(words: seq<string>, w: string)
    requires |words| >= 1
    ensures Unwords(words + [w]) == Unwords(words) + " " + w
  {
    assert (words + [w])[..|words|] == words;
  }

  lemma {:induction false} UnwordsAppend(words: seq<string>, more: seq<string>)
    requires |words| >= 1
    ensures Unwords(words + more) == Unwords(words) + Concat(more)
    decreases |more|
  {
    if |more| > 0 {
      var last := more[|more| - 1];
      var init := more[..|more| - 1];
      assert words + more == (words + init) + [last];
      UnwordsSnoc(words + init, last);
      UnwordsAppend(words, init);
      assert Concat(more) == Concat(init) + " " + last;
    } else {
      assert words + more == words;
    }
  }

  /** Each word preceded by one space. */
  function Concat(words: seq<string>): string
    decreases |words|
  {
    if |words| == 0 then "" else Concat(words[..|words| - 1]) + " " + words[|words| - 1]
  }

  lemma {:induction false} ConcatAppend(a: seq<string>, b: seq<string>)
    ensures Concat(a + b) == Concat(a) + Concat(b)
    decreases |b|
  {
    if |b| == 0 {
      assert a + b == a;
    } else {
      assert a + b == (a + b[..|b| - 1]) + [b[|b| - 1]];
      ConcatAppend(a, b[..|b| - 1]);
    }
  }

  lemma ConcatPresent(o: Option<string>)
    ensures Concat(Present(o)) == Word(o)
  {
    if Truthy(o) {
      assert Present(o)[..0] == [];
    }
  }

  /** A regular message is exactly the verb and the present fields joined by
      single spaces: nothing absent or empty leaves a stray space. */
  lemma {:induction false} DescribeIsUnwords(verb: string, data: Option<SpanData>, error: Option<string>)
    ensures Describe(verb, data, error) == Unwords([verb] + PresentFields(data, error))
  {
    UnwordsAppend([verb], PresentFields(data, error));
    ConcatFields(data, error);
  }

  lemma ConcatFields(data: Option<SpanData>, error: Option<string>)
    ensures Concat(PresentFields(data, error))
            == (if data.Some? then Word(Some(data.value.kind)) + Word(data.value.name) + Word(data.value.server) else "")
               + Word(error)
  {
    ConcatPresent(error);
    if data.Some? {
      var d := data.value;
      ConcatAppend(Present(Some(d.kind)) + Present(d.name) + Present(d.server), Present(error));
      ConcatDataFields(d);
    } else {
      assert PresentFields(data, error) == Present(error);
    }
  }

  lemma ConcatDataFields(d: SpanData)
    ensures Concat(Present(Some(d.kind)) + Present(d.name) + Present(d.server))
            == Word(Some(d.kind)) + Word(d.name) + Word(d.server)
  {
    ConcatAppend(Present(Some(d.kind)) + Present(d.name), Present(d.server));
    ConcatAppend(Present(Some(d.kind)), Present(d.name));
    ConcatPresent(Some(d.kind));
    ConcatPresent(d.name);
    ConcatPresent(d.server);
  }

  /** The tool-start message: tool name, the server in brackets when truthy. */
  function ToolStartMessage(d: SpanData): (r: string)
    ensures |r| == |Wrench| + |ToolName(d)| + (if Truthy(d.server) then |d.server.value| + 3 else 0) + 14
    ensures r[..|Wrench| + |ToolName(d)|] == Wrench + ToolName(d)
    ensures r[|r| - 14..] == " - Starting..."
    ensures Truthy(d.server) ==> r[|Wrench| + |ToolName(d)|..|r| - 14] == " [" + d.server.value + "]"
  {
    var r := Wrench + ToolName(d) + (if Truthy(d.server) then " [" + d.server.value + "]" else "") + " - Starting...";
    assert Truthy(d.server) ==> r[|Wrench| + |ToolName(d)|..|r| - 14] == " [" + d.server.value + "]";
    r
  }

  /** The result summary: nothing for an absent or empty result, the whole
      result when at most 100 characters, else the first 97 and `...`. */
  function ResultSummary(result: Option<string>): (r: string)
    ensures !Truthy(result) <==> r == ""
    ensures Truthy(result) ==> |r| == |Arrow| + (if |result.value| > ResultLimit then ResultLimit else |result.value|)
    ensures Truthy(result) ==> r[..|Arrow|] == Arrow
    ensures Truthy(result) && |result.value| <= ResultLimit ==> r[|Arrow|..] == result.value
    ensures Truthy(result) && |result.value| > ResultLimit ==>
              && |r| == |Arrow| + ResultLimit
              && r[|Arrow|..|Arrow| + ResultKeep] == result.value[..ResultKeep]
              && r[|Arrow| + ResultKeep..] == "..."
  {
    if !Truthy(result) then ""
    else if |result.value| > ResultLimit then Arrow + result.value[..ResultKeep] + "..."
    else Arrow + result.value
  }

  /** `f"{duration:.1f}"` for a duration counted in tenths of a second. */
  function DurationText(tenths: int): string {
    var m := if tenths < 0 then -tenths else tenths;
    (if tenths < 0 then "-" else "") + NatToString(m / 10) + "." + [DigitChar(m % 10)]
  }

  /** The rendered duration denotes the duration: its integer part and its
      one decimal give back the tenths. */
  lemma DurationTextDenotes(tenths: nat)
    ensures var s := NatToString(tenths / 10);
            && DurationText(tenths) == s + "." + [DigitChar(tenths % 10)]
            && DigitsValue(s) * 10 + tenths % 10 == tenths
  {
    NatToStringRoundTrip(tenths / 10);
  }

  function Status(error: Option<string>): char {
    if Truthy(error) then CrossMark else CheckMark
  }

  /** What follows the result summary in a tool-end message: the duration in
      brackets, the status mark, and the error text exactly when there is an
      error. */
  function ToolEndTail(error: Option<string>, tenths: int): (t: string)
    ensures var dur := DurationText(tenths);
            && |t| >= |dur| + 6
            && t[..|dur| + 4] == " [" + dur + "s]"
            && (!Truthy(error) ==> |t| == |dur| + 6 && t[|t| - 1] == CheckMark)
            && (Truthy(error) ==> |t| > |error.value| + 9 && t[|t| - |error.value| - 9..] == [CrossMark] + " Error: " + error.value)
    ensures var dur := DurationText(tenths);
            && |t| == |dur| + 6 + (if Truthy(error) then |error.value| + 8 else 0)
            && t[|dur| + 4] == ' '
            && t[|dur| + 5] == Status(error)
  {
    var dur := DurationText(tenths);
    var t := " [" + dur + "s] " + [Status(error)] + (if Truthy(error) then " Error: " + error.value else "");
    assert t[..|dur| + 4] == " [" + dur + "s]";
    t
  }

  /** The tool-end message: name, result summary, duration, then the status
      mark, and the error text exactly when there is an error. */
  function ToolEndMessage(d: SpanData, error: Option<string>, tenths: int): (r: string)
    ensures var h := |Wrench| + |ToolName(d)| + |ResultSummary(d.result)|;
            && |r| > h
            && r[..h] == Wrench + ToolName(d) + ResultSummary(d.result)
            && r[h..] == ToolEndTail(error, tenths)
    ensures !Truthy(error) ==> r[|r| - 1] == CheckMark
    ensures Truthy(error) ==> |r| > |error.value| + 9 && r[|r| - |error.value| - 9..] == [CrossMark] + " Error: " + error.value
    ensures var h := |Wrench| + |ToolName(d)| + |ResultSummary(d.result)|;
            var dur := DurationText(tenths);
            && |r| >= h + |dur| + 6
            && r[h..h + |dur| + 4] == " [" + dur + "s]"
            && (!Truthy(error) ==> |r| == h + |dur| + 6)
  {
    var prefix := Wrench + ToolName(d) + ResultSummary(d.result);
    var tail := ToolEndTail(error, tenths);
    var r := prefix + tail;
    assert r[..|prefix|] == prefix && r[|prefix|..] == tail;
    SliceOfSecond(prefix, tail, 0, |DurationText(tenths)| + 4);
    SliceOfSecond(prefix, tail, |tail| - 1, |tail|);
    var k := if Truthy(error) then |tail| - |error.value| - 9 else |tail|;
    SliceOfSecond(prefix, tail, k, |tail|);
    r
  }

  // ---------------------------------------------------------------------------
  // Handlers
  // ---------------------------------------------------------------------------

  /** The duration of a span ending at `now`: zero when no start was seen. */
  function Duration(starts: StartTimes, key: string, now: int): int {
    if key in starts then now - starts[key] else 0
  }

  /** Which end of a trace a notification reports. */
  datatype Phase = Started | Ended

  /** The word a trace message opens with. */
  function PhaseWord(phase: Phase): string {
    match phase
    case Started => "Started"
    case Ended => "Ended"
  }

  /** `on_trace_start` (phase `Started`) and `on_trace_end` (phase `Ended`),
      which differ only in the word their message opens with. */
  function OnTrace(starts: StartTimes, trace: Trace, phase: Phase): (r: Result<Step, string>)
    ensures r.Failure? <==> '_' !in trace.traceId
    ensures r.Success? ==> r.value.starts == starts
    ensures r.Success? && !Owned(trace.traceId) ==> r.value.writes == []
    ensures Owned(trace.traceId) ==>
              r == Success(Step(starts, [LogWrite(OwnerOf(trace.traceId), "trace", PhaseWord(phase) + ": " + trace.name)]))
  {
    match GetName(trace.traceId)
    case Failure(e) => Failure(e)
    case Success(name) =>
      if Truthy(name) then Success(Step(starts, [LogWrite(name.value, "trace", PhaseWord(phase) + ": " + trace.name)]))
      else Success(Step(starts, []))
  }

  /** The message `on_span_start` writes. */
  function StartMessage(span: Span): string {
    if IsTool(span) then ToolStartMessage(span.data.value) else Describe("Started", span.data, span.error)
  }

  /** The message `on_span_end` writes for a span that lasted `tenths`. */
  function EndMessage(span: Span, tenths: int): string {
    if IsTool(span) then ToolEndMessage(span.data.value, span.error, tenths) else Describe("Ended", span.data, span.error)
  }

  /** `on_span_start`: an owned span records its start time (tools and other
      spans alike) and writes one entry; an unowned one changes nothing. */
  function OnSpanStart(starts: StartTimes, span: Span, now: int): (r: Result<Step, string>)
    ensures r.Failure? <==> '_' !in span.traceId
    ensures r.Success? && !Owned(span.traceId) ==> r.value == Step(starts, [])
    ensures Owned(span.traceId) ==> r.Success?
    ensures r.Success? && Owned(span.traceId) ==>
              && r.value.starts == starts[SpanKey(span.traceId, span.spanId) := now]
              && r.value.writes == [LogWrite(OwnerOf(span.traceId), Category(span), StartMessage(span))]
  {
    match GetName(span.traceId)
    case Failure(e) => Failure(e)
    case Success(name) =>
      if !Truthy(name) then Success(Step(starts, []))
      else
        var key := SpanKey(span.traceId, span.spanId);
        Success(Step(starts[key := now], [LogWrite(name.value, Category(span), StartMessage(span))]))
  }

  /** `on_span_end`: an owned span's start record is consumed (absent
      afterwards in every case) and one entry is written with the elapsed
      time; an unowned one changes nothing. */
  function OnSpanEnd(starts: StartTimes, span: Span, now: int): (r: Result<Step, string>)
    ensures r.Failure? <==> '_' !in span.traceId
    ensures r.Success? && !Owned(span.traceId) ==> r.value == Step(starts, [])
    ensures Owned(span.traceId) ==> r.Success?
    ensures r.Success? && Owned(span.traceId) ==>
              var key := SpanKey(span.traceId, span.spanId);
              && key !in r.value.starts
              && r.value.starts == starts - {key}
              && r.value.writes == [LogWrite(OwnerOf(span.traceId), Category(span), EndMessage(span, Duration(starts, key, now)))]
  {
    match GetName(span.traceId)
    case Failure(e) => Failure(e)
    case Success(name) =>
      if !Truthy(name) then Success(Step(starts, []))
      else
        var key := SpanKey(span.traceId, span.spanId);
        Success(Step(starts - {key}, [LogWrite(name.value, Category(span), EndMessage(span, Duration(starts, key, now)))]))
  }

  /** A span started at `t0` and ended at `t1` is logged with duration
      `t1 - t0`, and the start-time map returns to what it was. */
  lemma StartThenEnd(starts: StartTimes, span: Span, t0: int, t1: int)
    requires Owned(span.traceId)
    requires SpanKey(span.traceId, span.spanId) !in starts
    ensures var mid := OnSpanStart(starts, span, t0).value;
            var fin := OnSpanEnd(mid.starts, span, t1).value;
            && fin.starts == starts
            && fin.writes == [LogWrite(OwnerOf(span.traceId), Category(span), EndMessage(span, t1 - t0))]
  {
    var key := SpanKey(span.traceId, span.spanId);
    var mid := OnSpanStart(starts, span, t0).value;
    assert mid.starts == starts[key := t0] by {
      StartStep(starts, span, t0);
    }
    assert Duration(mid.starts, key, t1) == t1 - t0 && mid.starts - {key} == starts by {
      EndStepTimes(starts, key, t0, t1);
    }
    EndStep(mid.starts, span, t1, t1 - t0);
  }

  lemma StartStep(starts: StartTimes, span: Span, now: int)
    requires Owned(span.traceId)
    ensures OnSpanStart(starts, span, now).value.starts == starts[SpanKey(span.traceId, span.spanId) := now]
  {
  }

  /** The start record is consumed: the map returns to what it was and the
      measured duration is the time in between. */
  lemma EndStepTimes(starts: StartTimes, key: string, t0: int, t1: int)
    requires key !in starts
    ensures starts[key := t0] - {key} == starts
    ensures Duration(starts[key := t0], key, t1) == t1 - t0
  {
    RestoreAfterRemove(starts, key, t0);
  }

  lemma EndStep(starts: StartTimes, span: Span, now: int, tenths: int)
    requires Owned(span.traceId)
    requires tenths == Duration(starts, SpanKey(span.traceId, span.spanId), now)
    ensures var fin := OnSpanEnd(starts, span, now).value;
            && fin.starts == starts - {SpanKey(span.traceId, span.spanId)}
            && fin.writes == [LogWrite(OwnerOf(span.traceId), Category(span), EndMessage(span, tenths))]
  {
  }

  lemma RestoreAfterRemove(starts: StartTimes, key: string, t0: int)
    requires key !in starts
    ensures starts[key := t0] - {key} == starts
  {
  }

  /** An end without a recorded start is logged with duration zero. */
  lemma EndWithoutStart(starts: StartTimes, span: Span, now: int)
    requires Owned(span.traceId)
    requires SpanKey(span.traceId, span.spanId) !in starts
    ensures OnSpanEnd(starts, span, now) == Success(Step(starts, [LogWrite(OwnerOf(span.traceId), Category(span), EndMessage(span, 0))]))
  {
    assert starts - {SpanKey(span.traceId, span.spanId)} == starts;
  }

  /** Handling one span leaves every other span's start record as it was. */
  lemma OtherSpansUntouched(starts: StartTimes, span: Span, now: int, key: string)
    requires '_' in span.traceId
    requires key != SpanKey(span.traceId, span.spanId)
    ensures var a := OnSpanStart(starts, span, now).value.starts;
            var b := OnSpanEnd(starts, span, now).value.starts;
            && (key in a <==> key in starts) && (key in b <==> key in starts)
            && (key in starts ==> a[key] == starts[key] && b[key] == starts[key])
  {
  }
}

=== FILE: traders.dfy ===
/** The trader control rules (`traders.py`): model selection by name, the
    trade/rebalance toggle of `run`, the naming of a run's trace, the choice
    of the agent's opening message, and the trimmed account report. The agent
    runtime, the tool servers and the prompt texts are outside the model: a
    run's outcome is a parameter. */
module Traders {
  import opened Wrappers
  import opened Text
  import Tracers

  /** The OpenAI-compatible clients `traders.py` builds at import time. */
  datatype Client = OpenRouterClient | DeepSeekClient | GrokClient | GeminiClient

  /** What `get_model` returns: a chat-completions model bound to a client,
      or the bare model name for the default provider. */
  datatype Model = ChatCompletionsModel(model: string, client: Client) | ModelName(name: string)

  /** `get_model`: the first matching rule wins, `/` before `deepseek`
      before `grok` before `gemini`; no match returns the name itself. */
  function GetModel(modelName: string): (r: Model)
    ensures Contains(modelName, "/") ==> r == ChatCompletionsModel(modelName, OpenRouterClient)
    ensures r == ChatCompletionsModel(modelName, DeepSeekClient) <==>
              !Contains(modelName, "/") && Contains(modelName, "deepseek")
    ensures r == ChatCompletionsModel(modelName, GrokClient) <==>
              !Contains(modelName, "/") && !Contains(modelName, "deepseek") && Contains(modelName, "grok")
    ensures r == ChatCompletionsModel(modelName, GeminiClient) <==>
              && !Contains(modelName, "/") && !Contains(modelName, "deepseek") && !Contains(modelName, "grok")
              && Contains(modelName, "gemini")
    ensures r.ModelName? <==>
              && !Contains(modelName, "/") && !Contains(modelName, "deepseek") && !Contains(modelName, "grok")
              && !Contains(modelName, "gemini")
    ensures r.ModelName? ==> r.name == modelName
    ensures r.ChatCompletionsModel? ==> r.model == modelName
  {
    if Contains(modelName, "/") then ChatCompletionsModel(modelName, OpenRouterClient)
    else if Contains(modelName, "deepseek") then ChatCompletionsModel(modelName, DeepSeekClient)
    else if Contains(modelName, "grok") then ChatCompletionsModel(modelName, GrokClient)
    else if Contains(modelName, "gemini") then ChatCompletionsModel(modelName, GeminiClient)
    else ModelName(modelName)
  }

  /** An OpenRouter name that also mentions a provider still goes to OpenRouter. */
  lemma SlashTakesPrecedence()
    ensures GetModel("deepseek/deepseek-chat") == ChatCompletionsModel("deepseek/deepseek-chat", OpenRouterClient)
  {
    assert OccursAt("deepseek/deepseek-chat", "/", 8);
  }

  /** The trader's identity and mode. Of these, only `do_trade` changes
      between runs; the agent object a run builds is not part of the record. */
  datatype Trader = Trader(name: string, lastname: string, modelName: string, doTrade: bool)

  /** `Trader(name, lastname="Trader", model_name="gpt-4o-mini")` starts in trade mode. */
  function NewTrader(name: string, lastname: string, modelName: string): (t: Trader)
    ensures t.doTrade && t.name == name && t.lastname == lastname && t.modelName == modelName
  {
    Trader(name, lastname, modelName, true)
  }

  /** The trace name `run_with_trace` opens. */
  function TraceName(t: Trader): (r: string)
    ensures t.doTrade ==> r == t.name + "-trading"
    ensures !t.doTrade ==> r == t.name + "-rebalancing"
    ensures r[..|t.name|] == t.name
  {
    t.name + (if t.doTrade then "-trading" else "-rebalancing")
  }

  /** The trace id `run_with_trace` opens: built from the lower-cased name,
      with `pad` standing for the random padding. */
  function TraceId(t: Trader, pad: string): string
    requires Tracers.IsPadding(Lower(t.name), pad)
  {
    Tracers.MakeTraceId(Lower(t.name), pad)
  }

  /** The tracer attributes a trader's trace to the trader's lower-cased name
      whenever the name holds neither `0` nor `_`. */
  lemma TraceIdOwner(t: Trader, pad: string)
    requires Tracers.IsPadding(Lower(t.name), pad)
    requires '0' !in t.name && '_' !in t.name
    ensures Tracers.GetName(TraceId(t, pad)) == Success(Some(Lower(t.name)))
  {
    LowerKeepsNonLetter(t.name, '0');
    LowerKeepsNonLetter(t.name, '_');
    Tracers.TraceIdRoundTrip(Lower(t.name), pad);
  }

  /** The opening message of `run_agent`; the prompt texts themselves are
      outside the model, so a message records which template and inputs. */
  datatype Message =
    | TradeMessage(name: string, strategy: string, account: string)
    | RebalanceMessage(name: string, strategy: string, account: string)

  /** `run_agent` sends the trade message in trade mode and the rebalance
      message otherwise. */
  function AgentMessage(t: Trader, strategy: string, account: string): (r: Message)
    ensures r.TradeMessage? <==> t.doTrade
    ensures r.name == t.name && r.strategy == strategy && r.account == account
  {
    if t.doTrade then TradeMessage(t.name, strategy, account) else RebalanceMessage(t.name, strategy, account)
  }

  const TimeSeriesKey: string := "portfolio_value_time_series"

  /** `get_account_report`: the account without its time series, every
      other key and value as read. */
  function GetAccountReport<V>(account: map<string, V>): (r: map<string, V>)
    ensures TimeSeriesKey !in r
    ensures r.Keys == account.Keys - {TimeSeriesKey}
    ensures forall k :: k in r ==> r[k] == account[k]
  {
    account - {TimeSeriesKey}
  }

  /** How `run_with_trace` ended. `Raised` is an `Exception`, which `run`
      catches; `Escaped` is a `BaseException` outside `Exception` (a task
      cancellation, a keyboard interrupt), which `run` does not catch. */
  datatype Outcome = Completed | Raised(message: string) | Escaped(exception: string)

  /** The outcome of a `run` that returned: the trader for the next run, and
      the diagnostic line printed when `run_with_trace` raised. */
  datatype RunResult = RunResult(trader: Trader, diagnostic: Option<string>)

  /** `run`. A caught exception is printed and the mode flips as after a
      clean run. An escaping one leaves `run` before the toggle: `run` raises
      it and the trader keeps its mode. */
  function Run(t: Trader, outcome: Outcome): (r: Result<RunResult, string>)
    ensures r.Failure? <==> outcome.Escaped?
    ensures r.Failure? ==> r.error == outcome.exception
    ensures r.Success? ==> r.value.trader == t.(doTrade := !t.doTrade)
    ensures r.Success? ==> (r.value.diagnostic.Some? <==> outcome.Raised?)
    ensures outcome.Raised? ==> r == Success(RunResult(t.(doTrade := !t.doTrade), Some("Error running trader " + t.name + ": " + outcome.message)))
  {
    match outcome
    case Completed => Success(RunResult(t.(doTrade := !t.doTrade), None))
    case Raised(e) => Success(RunResult(t.(doTrade := !t.doTrade), Some("Error running trader " + t.name + ": " + e)))
    case Escaped(e) => Failure(e)
  }

  /** The trader after a series of runs with the given outcomes; an escaping
      exception ends the series with the trader as it was. */
  function RunAll(t: Trader, outcomes: seq<Outcome>): Trader
    decreases |outcomes|
  {
    if |outcomes| == 0 then t
    else
      match Run(t, outcomes[0])
      case Failure(_) => t
      case Success(r) => RunAll(r.trader, outcomes[1..])
  }

  /** The number of runs before the first escaping exception. */
  function Completes(outcomes: seq<Outcome>): (k: nat)
    ensures k <= |outcomes|
    ensures forall i :: 0 <= i < k ==> !outcomes[i].Escaped?
    ensures k < |outcomes| ==> outcomes[k].Escaped?
    decreases |outcomes|
  {
    if |outcomes| == 0 || outcomes[0].Escaped? then 0 else 1 + Completes(outcomes[1..])
  }

  /** Runs alternate between trading and rebalancing whatever exception they
      catch: after the `k` runs that return, the mode is the initial one
      exactly when `k` is even, and nothing else about the trader changes. */
  lemma {:induction false} RunAllAlternates(t: Trader, outcomes: seq<Outcome>)
    ensures RunAll(t, outcomes).doTrade == (t.doTrade == (Completes(outcomes) % 2 == 0))
    ensures RunAll(t, outcomes) == t.(doTrade := RunAll(t, outcomes).doTrade)
    decreases |outcomes|
  {
    if |outcomes| > 0 && !outcomes[0].Escaped? {
      RunAllAlternates(Run(t, outcomes[0]).value.trader, outcomes[1..]);
    }
  }

  /** Consecutive runs that return open traces of the two kinds in turn. */
  lemma TraceNamesAlternate(t: Trader, outcome: Outcome)
    ensures Run(t, outcome).Success? ==>
              var next := Run(t, outcome).value.trader;
              TraceName(t) != TraceName(next)
              && (TraceName(t) == t.name + "-trading" || TraceName(next) == t.name + "-trading")
  {
    if !outcome.Escaped? {
      var next := Run(t, outcome).value.trader;
      if t.doTrade {
        assert TraceName(next)[|t.name|..] == "-rebalancing";
      } else {
        assert TraceName(t)[|t.name|..] == "-rebalancing";
      }
    }
  }
}

=== FILE: wrappers.dfy ===
/** Failure-compatible wrappers used across the model: an optional value
    (Python's `None`) and a result that is either a value or a raised error. */
module Wrappers {

  /** `None` stands for Python's `None` or for an absent attribute. */
  datatype Option<+T> = None | Some(value: T)

  /** `Failure(msg)` stands for an exception raised with message `msg`. */
  datatype Result<+T, +E> = Success(value: T) | Failure(error: E)
}
